=== FILE: README.md ===
# Screen-mirror signaling and session model

A Dafny model of the core of the React Native screen-mirror application.

**Relay.** A Socket.IO relay that pairs a sender and a receiver by session id. It
forwards their WebRTC offers, answers and ICE candidates, and tells each peer when
the other joins or leaves.

**Client side.** The model covers:

- the signaling client, a wrapper around one socket;
- the WebRTC hook, which connects, joins, builds the peer connection, adds the
  camera tracks, answers or sends offers, and tears everything down;
- the home screen's session button;
- the screen-capture store;
- the mock authentication store with its persisted slice.

**Relay model.** The relay's registry (`activeRooms`) is a map from session id to a
set of socket ids. Every handler returns the new registry and the set of deliveries
it broadcast. Each delivery records the room it went through, the receiving socket
and the event.

**Client model.** The client-side pieces are pure state machines. Calls into code
that is not modelled are oracles passed as parameters:

- the WebRTC native module;
- the screen-capture module;
- the clock used for ids;
- the sockets' I/O.

The foreign calls that actually ran are returned as an ordered list of effects. This
lets the contracts state both what was done and what was not, such as "a failed start
releases nothing" or "a receiver emits no signal while starting".

JavaScript's string behaviour is written out where the source depends on it, in module
`Text`:

- `trim` follows the ECMAScript WhiteSpace and LineTerminator sets;
- `split('@')[0]`;
- `length` counts UTF-16 code units.

## Modules

| file | module | models |
|---|---|---|
| options.dfy | Options | optional values and `??` |
| text.dfy | Text | `trim`, `split(c)[0]`, UTF-16 `length` |
| signal_types.dfy | SignalTypes | roles, signal types and the signal payload |
| relay.dfy | Relay | the `join-session`, `signal` and `disconnecting` handlers |
| relay_lemmas.dfy | RelayLemmas | how the handlers compose |
| relay_history.dfy | RelayHistory | arbitrary runs of the relay and exact membership |
| scenarios.dfy | Scenarios | one sender/receiver session end to end |
| signaling_client.dfy | SignalingClient | the client singleton: connect, join, emit, listeners, disconnect |
| negotiation.dfy | Negotiation | `useWebRtcDemo`: `startSession`, `handleSignal`, `ontrack`, `cleanup` |
| negotiation_lemmas.dfy | NegotiationLemmas | the hook's state invariant across any run of events |
| home_screen.dfy | HomeScreen | `isActive` and `handleSessionToggle` |
| capture_types.dfy | CaptureTypes | capture options and result types |
| capture_store.dfy | CaptureStore | `startCapture`, `stopCapture` |
| user_store.dfy | UserStore | sign in and up, the mock providers, sign out, guest, persistence |

## Model

| member | source | states |
|---|---|---|
| Text.Trim | src/screens/HomeScreen/HomeScreen.tsx:58-64 | the result is the slice between the leading and trailing white space; it is empty exactly when the input is all white space, otherwise it begins and ends with a non-space |
| Text.TrimIdempotent | src/screens/HomeScreen/HomeScreen.tsx:58-64 | trimming twice is trimming once |
| Text.FirstField | src/state/userStore.ts:40 | the result holds no separator; it is a prefix of the input; followed by the separator it is still a prefix when the separator occurs; it is the whole input when the separator does not occur |
| Text.FirstFieldOfJoin | src/state/userStore.ts:40 | splitting `x@y` gives `x` when `x` holds no `@` |
| Text.Utf16Length | src/state/userStore.ts:32 | the code-unit length lies between the code-point count and twice it; it equals the count on the Basic Multilingual Plane and twice the count when every character is above it |
| Text.Utf16LengthAppend | src/state/userStore.ts:32 | the code-unit length is additive over concatenation |
| SignalTypes.ParseRole | src/services/signaling/types.ts:3 | exactly `sender` and `receiver` are roles, and parsing inverts the spelling |
| SignalTypes.ParseSignalType | src/services/signaling/types.ts:5 | exactly `offer`, `answer` and `candidate` are signal types, and parsing inverts the spelling |
| SignalTypes.RoleNameRoundTrip | src/services/signaling/types.ts:3 | every role survives spelling then parsing; distinct roles have distinct spellings |
| SignalTypes.SignalTypeNameRoundTrip | src/services/signaling/types.ts:5 | every signal type survives spelling then parsing; distinct types have distinct spellings |
| Relay.Broadcast | server/index.js:35-38 | a delivery is sent exactly to each recipient, through the room, with the event |
| Relay.Join | server/index.js:25-39 | an empty session id changes nothing and sends nothing; otherwise the socket is added to the session, created if absent, and every other member, and only they, get `peer-joined` with the joiner's id and role; no session is left empty |
| Relay.Forward | server/index.js:41-47 | the registry is unchanged; the payload goes unchanged exactly to the other members of its session, and to nobody for an empty session id |
| Relay.JoinedSessions | server/index.js:50-53 | the rooms walked are exactly the sessions holding the socket, minus the room named after the socket |
| Relay.Disconnect | server/index.js:49-63 | the socket leaves every joined session; other members are kept; a session is deleted exactly when the socket was its only member; `peer-left` goes exactly to the other members of each joined session; no session is left empty |
| RelayLemmas.RepeatedJoin | server/index.js:29-38 | a second identical join leaves the registry unchanged but broadcasts `peer-joined` to the same members again |
| RelayLemmas.JoinThenDisconnect | server/index.js:25-63 | a socket in no session that joins one and disconnects leaves the registry exactly as before |
| RelayLemmas.SameMembersSameRegistry | server/index.js:20 | a registry is determined by its session ids and their members |
| RelayLemmas.DisconnectIdempotent | server/index.js:49-63 | a second disconnect of the same socket changes nothing and sends nothing |
| RelayLemmas.OwnRoomEntryOutlivesSocket | server/index.js:49-53 | a socket that joined the session named after its own id stays in that entry after disconnecting, and a later joiner of that session is announced to it |
| RelayLemmas.EmptiedSessionDropsSignals | server/index.js:41-60 | once the last member leaves, the session is deleted and a signal to it reaches nobody |
| RelayHistory.Run | server/index.js:20-63 | every run of handlers keeps the registry free of empty sessions |
| RelayHistory.Outbox | server/index.js:35-54 | over any run, no socket is ever told that it joined or left itself |
| RelayHistory.ApplyMembership | server/index.js:25-63 | one handler adds a socket to a session only by joining it, and removes it only by its own disconnect |
| RelayHistory.JoinedAndStayedSnoc | server/index.js:25-63 | "joined and not disconnected since" extended by one command |
| RelayHistory.RunMembership | server/index.js:20-63 | from an empty registry, a socket is a member of a session exactly when it joined that session and has not disconnected since |
| Scenarios.TwoJoins | server/index.js:25-39 | a sender then a receiver join an empty relay: nobody hears of the sender, only the sender hears of the receiver, and the session holds both |
| Scenarios.PairSignals | server/index.js:41-47 | in a two-member session each member's signal reaches exactly the other |
| Scenarios.PairDisconnect | server/index.js:49-63 | when one of two members disconnects, only the other is told, and it stays as the session's only member |
| Scenarios.TwoPeerSession | server/index.js:25-63 | the whole offer, answer and leave exchange of one session, delivery by delivery |
| SignalingClient.Disconnect | src/services/signaling/signalingClient.ts:36-40 | listeners are removed and the socket closed, if there is one; afterwards there is no socket and no listener, and the endpoint is still remembered |
| SignalingClient.Connect | src/services/signaling/signalingClient.ts:9-18 | a live socket on the same endpoint is kept with no call; otherwise the old socket is disconnected and a fresh one with a new id and no listeners is opened to the url |
| SignalingClient.JoinSession | src/services/signaling/signalingClient.ts:20-22 | emits `join-session` with the params unchanged when there is a socket, and nothing otherwise |
| SignalingClient.EmitsFollowConnection | src/services/signaling/signalingClient.ts:20-26 | after `connect` both emits go to the socket it opened; after `disconnect` both are dropped; neither changes the client |
| SignalingClient.EmitSignal | src/services/signaling/signalingClient.ts:24-26 | emits `signal` with the payload unchanged when there is a socket, and nothing otherwise |
| SignalingClient.OnSignal | src/services/signaling/signalingClient.ts:28-30 | one more occurrence of the listener when there is a socket; every other listener count is unchanged |
| SignalingClient.OffSignal | src/services/signaling/signalingClient.ts:32-34 | one fewer occurrence of the listener, if registered; every other listener count is unchanged |
| SignalingClient.ConnectIdempotent | src/services/signaling/signalingClient.ts:10-12 | connecting again to the endpoint just connected to does nothing |
| SignalingClient.OffSignalUndoesOnSignal | src/services/signaling/signalingClient.ts:28-34 | removing a listener undoes adding it |
| SignalingClient.ReconnectAfterDisconnect | src/services/signaling/signalingClient.ts:9-40 | after a disconnect the endpoint is still remembered, yet connecting to it opens a new socket with a new id |
| SignalingClient.Initial | src/services/signaling/signalingClient.ts:6-7 | the client starts valid, with no socket, no endpoint and no listener |
| Negotiation.StopTracks | src/modules/webrtc/useWebRtcDemo.ts:54-55 | one stop per track of the stream, in order; none without a stream |
| Negotiation.AddTracks | src/modules/webrtc/useWebRtcDemo.ts:101-103 | one `addTrack` per track, in order, ending just before the track whose call throws |
| Negotiation.StartFailsCases | src/modules/webrtc/useWebRtcDemo.ts:69-160 | a start fails exactly when peer construction, the camera, a track add, or (for a sender) an offer step throws |
| Negotiation.ConnectAndJoin | src/modules/webrtc/useWebRtcDemo.ts:71-72 | the last socket call of connecting and joining is the `join-session` emit on the connected socket |
| Negotiation.SendOffer | src/modules/webrtc/useWebRtcDemo.ts:146-156 | `connected` exactly when neither offer step throws, in which case the effects begin with `createOffer` then `setLocalDescription` of the created offer and, with a socket, end with exactly those two and the offer emit carrying the created sdp; a throwing `createOffer` leaves no effect and a throwing `setLocalDescription` only the `createOffer`, so no offer is emitted |
| Negotiation.Listen | src/modules/webrtc/useWebRtcDemo.ts:143-144 | a new handler for the session id and role is remembered and registered on the socket; nothing else changes |
| Negotiation.AfterTracks | src/modules/webrtc/useWebRtcDemo.ts:143-156 | after the tracks: the handler is registered; the status is `error` exactly when a sender's offer step throws; a connected sender's effects begin with `createOffer` and `setLocalDescription` of the created offer and, with a socket, end with those two and the offer emit; a receiver makes no effect; ending in `error` emits no signal |
| Negotiation.AfterMedia | src/modules/webrtc/useWebRtcDemo.ts:100-156 | after the camera: the effects begin with an `addTrack` of each camera track in order, up to the one that throws; `error` exactly when a track add or an offer step throws; a connected sender's last three effects create, set and emit its offer; a receiver emits no signal and makes no offer step; ending in `error` emits no signal |
| Negotiation.AfterPeer | src/modules/webrtc/useWebRtcDemo.ts:96-156 | after the peer connection: a throwing `getUserMedia` leaves no effect, otherwise the effects begin with `getUserMedia` and the track adds; `error` exactly when the camera, a track add or an offer step throws; the local stream is the camera's once acquired; a connected sender's last three effects create, set and emit its offer; ending in `error` emits no signal |
| Negotiation.StartSession | src/modules/webrtc/useWebRtcDemo.ts:63-163 | `connected` exactly when no step throws, otherwise `error`; the client ends with a socket on the endpoint; a connected session holds the camera stream and a registered handler for the session id and role; the remote stream is untouched |
| Negotiation.StartSessionJoinsFirst | src/modules/webrtc/useWebRtcDemo.ts:70-75 | connect and join come first; then, unless construction throws, the peer connection is created for the session id and recorded |
| Negotiation.StartSessionMedia | src/modules/webrtc/useWebRtcDemo.ts:96-103 | after connect, join and the peer construction a start calls `getUserMedia` and then `addTrack` on the new peer connection for each camera track in order, up to the one that throws; a throwing `getUserMedia` ends the effects there |
| Negotiation.StartSessionAddsEveryTrack | src/modules/webrtc/useWebRtcDemo.ts:96-103 | a start without failure acquires the camera and adds every camera track to the new peer connection |
| Negotiation.StartSessionEffects | src/modules/webrtc/useWebRtcDemo.ts:157-160 | starting, failed or not, releases nothing and applies no remote description |
| Negotiation.StartSessionOffers | src/modules/webrtc/useWebRtcDemo.ts:146-156 | a connected sender's last three steps are `createOffer` on its new peer connection, `setLocalDescription` of that offer and the offer emit on the connected socket; a failed start emits no signal, so no offer; a receiver emits no signal, creates no offer and sets no local description while starting |
| Negotiation.AddIceCandidate | src/modules/webrtc/useWebRtcDemo.ts:78-86 | the overridden `addIceCandidate` emits the candidate as a `candidate` signal for the peer's session id instead of applying it |
| Negotiation.HandleSignal | src/modules/webrtc/useWebRtcDemo.ts:105-141 | the session never changes; without a peer or outside the dispatch table nothing happens; a remote description is applied only for a dispatched offer or answer, with `payload.sdp ?? ''`; only a receiver's answer or a candidate is emitted; the full receiver sequence when nothing throws; candidates go through the override; a throwing step ends the handler: a receiver whose `setRemoteDescription`, `createAnswer` or `setLocalDescription` throws stops right there and emits no answer, and a sender applies the answer unless `setRemoteDescription` throws |
| Negotiation.OnTrack | src/modules/webrtc/useWebRtcDemo.ts:89-94 | the first stream of the event, if any, becomes the remote stream; nothing else changes |
| Negotiation.ReleaseMedia | src/modules/webrtc/useWebRtcDemo.ts:51-55 | the peer connection is closed and every track of both streams stopped, and nothing else |
| Negotiation.EndSession | src/modules/webrtc/useWebRtcDemo.ts:46-61 | `idle` with no peer, handler, streams, socket or listener; every held track stopped and only those; the socket closed; no emit and no new socket |
| NegotiationLemmas.Run | src/modules/webrtc/useWebRtcDemo.ts:37-167 | from a consistent state, every run of starts, inbound signals, track events and ends stays consistent: `idle` holds nothing; `connected` holds a peer, a local stream, a socket and a registered handler |
| NegotiationLemmas.StepConsistent | src/modules/webrtc/useWebRtcDemo.ts:37-167 | each single event keeps the state consistent |
| NegotiationLemmas.InitialConsistent | src/modules/webrtc/useWebRtcDemo.ts:37-44 | the hook starts consistent |
| NegotiationLemmas.EndSessionIdempotent | src/modules/webrtc/useWebRtcDemo.ts:46-61 | a second end does nothing |
| NegotiationLemmas.NoSignalHandlingAfterEnd | src/modules/webrtc/useWebRtcDemo.ts:106-108 | after an end, a late signal has no effect |
| NegotiationLemmas.StartWithoutFailureConnects | src/modules/webrtc/useWebRtcDemo.ts:69-156 | a start with no failing step connects either role without applying any remote description |
| NegotiationLemmas.OfferAnswerExchange | src/modules/webrtc/useWebRtcDemo.ts:109-131 | an offer makes only a receiver answer; an answer is applied only by a sender |
| HomeScreen.ResolveEndpoint | src/screens/HomeScreen/HomeScreen.tsx:64 | the trimmed endpoint, or the configured url when it is blank |
| HomeScreen.IsActiveCases | src/screens/HomeScreen/HomeScreen.tsx:31 | a session counts as active exactly when it is neither idle nor failed |
| HomeScreen.Toggle | src/screens/HomeScreen/HomeScreen.tsx:31-66 | end exactly when active; ignore exactly when inactive with a blank session id; otherwise start with the trimmed, non-blank session id, the role and the resolved endpoint |
| HomeScreen.Press | src/screens/HomeScreen/HomeScreen.tsx:53-66 | pressing on an active session ends it; on a blank session id nothing happens; otherwise it starts, joining with the trimmed id on the resolved endpoint |
| HomeScreen.PressTwiceRestarts | src/screens/HomeScreen/HomeScreen.tsx:53-66 | on a connected session, one press ends it and the next starts anew |
| CaptureTypes.ParseResolution | src/modules/capture/types.ts:1 | exactly the four resolution spellings parse, and parsing inverts the spelling |
| CaptureTypes.ParseCaptureStatus | src/modules/capture/types.ts:10 | exactly `success`, `cancelled` and `error` parse, and parsing inverts the spelling |
| CaptureTypes.NamesRoundTrip | src/modules/capture/types.ts:1-12 | resolutions and statuses survive spelling then parsing, and their spellings are distinct |
| CaptureStore.ErrorText | src/state/captureStore.ts:33-36 | an `Error`'s message, any other thrown value the fallback |
| CaptureStore.StartCapture | src/state/captureStore.ts:22-39 | permission is asked first; the backend starts exactly when permission is granted; denial records the denial message; a successful start marks capturing and clears the error; any throw leaves capturing unchanged and sets the error; the recording path is never touched |
| CaptureStore.StopCapture | src/state/captureStore.ts:40-56 | a resolved stop clears capturing and the error and overwrites the path with the result's URL (or none); a throw changes only the error |
| CaptureStore.CallsIgnoreState | src/state/captureStore.ts:22-56 | the backend calls depend only on the outcomes, not on the store's state |
| CaptureStore.StartThenStop | src/state/captureStore.ts:22-56 | a successful start then stop leaves the store stopped, error-free, with the new recording path |
| CaptureStore.InitialStore | src/state/captureStore.ts:19-21 | the store starts not capturing, with no recording path and no error; a denied start from there records only the denial |
| UserStore.NameFromEmail | src/state/userStore.ts:40 | the derived name holds no `@` and is the part of the email before its first `@` |
| UserStore.MockSignIn | src/state/userStore.ts:27-42 | rejects exactly when the email lacks `@` or the password is shorter than six code units, with the fixed message; otherwise the user keeps the email and is named by its local part |
| UserStore.MockSignUp | src/state/userStore.ts:44-59 | as sign-in, except that a non-empty given name is kept |
| UserStore.Settle | src/state/userStore.ts:69-95 | loading ends; success stores the user, authenticates and clears the error; rejection keeps the user, records and rethrows the message; consistency is kept |
| UserStore.SignIn | src/state/userStore.ts:69-81 | authenticated afterwards exactly when the credentials are valid or it already was; valid credentials store the user with the given id and email, named by the part of the email before the first `@` and without avatar, clear the error and end loading; invalid credentials only set the error and end loading, and rethrow |
| UserStore.SignUp | src/state/userStore.ts:83-95 | as sign-in, through the sign-up mock: the stored user keeps a non-empty given name, and is otherwise named from the email |
| UserStore.SignInWithGoogle | src/state/userStore.ts:97-116 | always authenticates the fixed Google user with its avatar |
| UserStore.SignInWithApple | src/state/userStore.ts:118-136 | always authenticates the fixed Apple user, without an avatar |
| UserStore.SignOut | src/state/userStore.ts:138-140 | no user, not authenticated, no error; loading untouched |
| UserStore.ContinueAsGuest | src/state/userStore.ts:142-144 | the same update as sign-out |
| UserStore.ClearError | src/state/userStore.ts:146-148 | only the error changes |
| UserStore.Persist | src/state/userStore.ts:153-156 | exactly the user and the authenticated flag are stored |
| UserStore.Rehydrate | src/state/userStore.ts:153-156 | restoring puts back exactly what was stored and keeps loading and error |
| UserStore.PersistRoundTrip | src/state/userStore.ts:153-156 | loading and error never reach storage; restoring a consistent state's slice is consistent; storing then restoring a state gives it back |
| UserStore.SignInName | src/state/userStore.ts:32-41 | signing in with `x@y` names the user `x` |
| UserStore.InitialConsistent | src/state/userStore.ts:64-67 | the store starts consistent: no user, not authenticated, not loading, no error |

## Left out

- The Express app, CORS, the health route and `listen` are HTTP plumbing with no bearing on signaling.
- Socket.IO's wire protocol, transports and its own room table are not modelled. Routing reads the registry. The two agree unless a session id equals the id of any socket, live or disconnected, which the server does not guard against. A socket that joins the session named after its own id is never removed from that entry, because `disconnecting` skips the room named after the socket (server/index.js:51-53), so the entry outlives the socket.
- `socket.data.role` is written but never read, so it is not kept.
- Relay.Forward: the server relays any object whose `sessionId` is truthy, whatever its `type` and other fields (server/index.js:41-46). The model narrows the relayed value to the client's typed `SignalPayload`, whose kind is offer, answer or candidate. Routing does not depend on the rest of the payload, so the delivery sets are the same.
- WebRTC is an oracle. Peer construction, `getUserMedia`, `addTrack`, `createOffer`, `createAnswer` and the two description setters either complete, and are recorded as effects, or throw at a named step.
- `close()`, `track.stop()`, `new RTCSessionDescription(...)` and `new RTCIceCandidate(...)` (useWebRtcDemo.ts:51-55, 110, 125, 135) are modelled as never throwing. So the `catch` at line 137 catches nothing in the model; the overridden `addIceCandidate` it guards always resolves.
- `connect`, `joinSession` and `emitSignal` are modelled as not throwing.
- Promise interleaving is not modelled. An `endSession` racing a pending `startSession` is not covered, and neither are callbacks that still see an older render's state. Every operation runs to completion against the current state.
- NegotiationLemmas.InitialConsistent: covers only a hook mounted over a client without a socket. `signalingClient` is a module-level singleton that outlives the hook. A home screen unmounted without `endSession` leaves a live socket and a stale listener, and a remounted hook then starts `idle` with them. That case is not covered.
- The `endpoint` default parameter of `startSession` is left out, because the home screen always passes one. That screen's configured URL is a parameter.
- Ids that the source builds from `Date.now()`, and the one-second mock delays, become parameters or are dropped.
- `AsyncStorage` and zustand's merge mechanism are not modelled; only the persisted slice and its restoration are.
- The fallback messages `Sign in failed`, `Google sign in failed` and the like are not modelled. The mocks only ever throw `Error` objects, or nothing, so these messages cannot occur.
- The wrappers in `screenCapture.ts`, the `CaptureEvent` type and all rendering code are not part of this model. The capture-toggle button is also left out.
- NegotiationLemmas.Step: a track event is taken to come only while a peer connection exists. A signal is taken to reach only a handler registered on the socket.
- HomeScreen.Press: states only that a start's effects begin with the connect and join calls, the client's endpoint and the final status. All other start facts are stated on `StartSession` and its lemmas.
- The capture `bitrate` is kept as an unbounded integer. JavaScript numbers and floating point are not modelled.

### Behaviour of the code worth knowing

- A repeated `join-session` from the same socket leaves the set as it was but broadcasts `peer-joined` again (server/index.js:29-38).
- A receiver reaches `connected` as soon as its handler is registered, without waiting for an offer (src/modules/webrtc/useWebRtcDemo.ts:143-156).
- A failing step inside `handleSignal` is an unhandled promise rejection, because only `addIceCandidate` is wrapped in a `try` (src/modules/webrtc/useWebRtcDemo.ts:133-139). The status does not change.
- A failed `startSession` only sets `error` and releases nothing (src/modules/webrtc/useWebRtcDemo.ts:157-160). So `error` may still hold a peer connection, a stream and a registered handler.
- A falsy session id is dropped (server/index.js:26, 43); the model writes it as the empty string.
- The same listener registered twice is held twice, because component-emitter keeps a list; `offSignal` removes one occurrence (src/services/signaling/signalingClient.ts:28-34).
- The client registers no handler for `peer-joined`, `peer-left` or a transport disconnect. When the other peer leaves, the remaining peer keeps its remote stream and its `connected` status.
- No `onicecandidate` handler is set, so a client never sends its own ICE candidates. The overridden `addIceCandidate` (src/modules/webrtc/useWebRtcDemo.ts:78-86) re-emits every inbound candidate (lines 132-136), so between two clients a candidate bounces back and forth.
- A `startSession` after a failed one overwrites the peer connection (src/modules/webrtc/useWebRtcDemo.ts:75) and the local stream (line 100) without closing or stopping the earlier ones, and the `catch` at lines 157-160 releases nothing. So the earlier peer connection and camera tracks are never released; `Negotiation.StartSessionEffects` and `Negotiation.StartSessionJoinsFirst` state both halves.
- `getUserMedia` always asks for video only, with `audio: false` (src/modules/webrtc/useWebRtcDemo.ts:96-99).

=== FILE: capture_store.dfy ===
/**
 * The screen-capture store: whether a capture runs, the last recording's
 * path and the last error, changed by `startCapture` and `stopCapture`.
 * The native capture module is an oracle whose calls resolve or throw.
 */
module CaptureStore {
  import opened Options
  import opened CaptureTypes

  datatype CaptureState = CaptureState(isCapturing: bool, lastRecordingPath: Option<string>, error: Option<string>)

  /** A thrown value: an `Error` carrying a message, or anything else. */
  datatype Thrown = ErrorObject(message: string) | OtherValue

  /** What the permission request does. */
  datatype PermissionOutcome = Granted | Denied | PermissionThrows(thrown: Thrown)

  /** What a start or stop call does; a stop may resolve with no result. */
  datatype CallOutcome = Resolves(result: Option<CaptureResult>) | Throws(thrown: Thrown)

  /** Calls the store makes into the native capture module, in order. */
  datatype BackendCall = RequestPermission | StartBackend(options: Option<CaptureOptions>) | StopBackend

  datatype Transition = Transition(state: CaptureState, calls: seq<BackendCall>)

  const PermissionDenied := "Screen capture permission denied"
  const StartFallback := "Unable to start screen capture"
  const StopFallback := "Unable to stop screen capture"

  /** The store as created. */
  const Initial := CaptureState(false, None, None)

  /** `error instanceof Error ? error.message : fallback`. */
  function ErrorText(t: Thrown, fallback: string): (msg: string)
    ensures t.ErrorObject? ==> msg == t.message
    ensures t.OtherValue? ==> msg == fallback
  {
    match t
    case ErrorObject(m) => m
    case OtherValue => fallback
  }

  /**
   * `startCapture(options)`: ask for permission; when denied, record the
   * denial and stop; otherwise start the backend and, when it resolves, mark
   * the capture running and clear the error. Whatever throws becomes the
   * error. The current state is not consulted first.
   */
  function StartCapture(s: CaptureState, options: Option<CaptureOptions>,
                        permission: PermissionOutcome, start: CallOutcome): (r: Transition)
    ensures r.state.lastRecordingPath == s.lastRecordingPath
    ensures |r.calls| > 0 && r.calls[0] == RequestPermission
    ensures StartBackend(options) in r.calls <==> permission.Granted?
    ensures permission.Denied? ==>
      r.state == s.(error := Some(PermissionDenied)) && r.calls == [RequestPermission]
    ensures permission.PermissionThrows? ==>
      r.state == s.(error := Some(ErrorText(permission.thrown, StartFallback)))
    ensures permission.Granted? && start.Resolves? ==> r.state.isCapturing && r.state.error.None?
    ensures permission.Granted? && start.Throws? ==>
      r.state == s.(error := Some(ErrorText(start.thrown, StartFallback)))
    ensures !(permission.Granted? && start.Resolves?) ==> r.state.isCapturing == s.isCapturing && r.state.error.Some?
  {
    match permission
    case PermissionThrows(t) => Transition(s.(error := Some(ErrorText(t, StartFallback))), [RequestPermission])
    case Denied => Transition(s.(error := Some(PermissionDenied)), [RequestPermission])
    case Granted =>
      var calls := [RequestPermission, StartBackend(options)];
      match start
      case Throws(t) => Transition(s.(error := Some(ErrorText(t, StartFallback))), calls)
      case Resolves(_) => Transition(s.(isCapturing := true, error := None), calls)
  }

  /**
   * `stopCapture()`: stop the backend; when it resolves, mark the capture
   * stopped, clear the error and overwrite the recording path with the
   * result's file URL, absent when the result or its URL is. When it
   * throws, only the error changes.
   */
  function StopCapture(s: CaptureState, stop: CallOutcome): (r: Transition)
    ensures r.calls == [StopBackend]
    ensures stop.Resolves? ==> !r.state.isCapturing && r.state.error.None?
    ensures stop.Resolves? && stop.result.Some? ==> r.state.lastRecordingPath == stop.result.value.videoFileURL
    ensures stop.Resolves? && stop.result.None? ==> r.state.lastRecordingPath.None?
    ensures stop.Throws? ==>
      && r.state.isCapturing == s.isCapturing
      && r.state.lastRecordingPath == s.lastRecordingPath
      && r.state.error == Some(ErrorText(stop.thrown, StopFallback))
  {
    match stop
    case Throws(t) => Transition(s.(error := Some(ErrorText(t, StopFallback))), [StopBackend])
    case Resolves(result) =>
      var path := if result.Some? then result.value.videoFileURL else None;
      Transition(CaptureState(false, path, None), [StopBackend])
  }

  /** Neither action looks at the state before calling the backend: the calls depend only on the outcomes. */
  lemma CallsIgnoreState(s: CaptureState, s': CaptureState, options: Option<CaptureOptions>,
                         permission: PermissionOutcome, start: CallOutcome, stop: CallOutcome)
    ensures StartCapture(s, options, permission, start).calls == StartCapture(s', options, permission, start).calls
    ensures StopCapture(s, stop).calls == StopCapture(s', stop).calls
  {
  }

  /** A successful start followed by a successful stop leaves the store stopped, error-free, with the new path. */
  lemma StartThenStop(s: CaptureState, options: Option<CaptureOptions>, started: Option<CaptureResult>, stopped: CaptureResult)
    ensures StartCapture(s, options, Granted, Resolves(started)).state.isCapturing
    ensures StopCapture(StartCapture(s, options, Granted, Resolves(started)).state, Resolves(Some(stopped))).state
         == CaptureState(false, stopped.videoFileURL, None)
  {
  }

  /**
   * The store starts not capturing, with no recording and no error; a denied
   * start from there records only the denial.
   */
  lemma InitialStore(options: Option<CaptureOptions>, start: CallOutcome)
    ensures !Initial.isCapturing && Initial.lastRecordingPath.None? && Initial.error.None?
    ensures StartCapture(Initial, options, Denied, start).state == CaptureState(false, None, Some(PermissionDenied))
  {
  }
}

=== FILE: capture_types.dfy ===
/** The option and result types of the screen-capture module. */
module CaptureTypes {
  import opened Options

  /** `ScreenCaptureResolution`: exactly one of `480p`, `720p`, `1080p` or `max`. */
  datatype Resolution = R480p | R720p | R1080p | Max

  /**
   * `ScreenCaptureOptions`: every field optional. The bit rate is a
   * JavaScript number the store passes through without reading it; it is
   * kept as an integer here.
   */
  datatype CaptureOptions = CaptureOptions(audio: Option<bool>, resolution: Option<Resolution>, bitrate: Option<int>)

  /** The three outcomes a capture result may report. */
  datatype CaptureStatus = Success | Cancelled | Failed

  /** `ScreenCaptureResult`: an optional status and an optional file URL. */
  datatype CaptureResult = CaptureResult(status: Option<CaptureStatus>, videoFileURL: Option<string>)

  /** The wire spelling of a resolution. */
  function ResolutionName(r: Resolution): string {
    match r
    case R480p => "480p"
    case R720p => "720p"
    case R1080p => "1080p"
    case Max => "max"
  }

  /**
   * Reads a string as a resolution; only the four literal spellings are
   * resolutions. Together with `ResolutionName` it encodes the string-literal
   * union `ScreenCaptureResolution`.
   */
  function ParseResolution(s: string): (r: Option<Resolution>)
    ensures r.Some? <==> s == "480p" || s == "720p" || s == "1080p" || s == "max"
    ensures r.Some? ==> ResolutionName(r.value) == s
  {
    if s == "480p" then Some(R480p)
    else if s == "720p" then Some(R720p)
    else if s == "1080p" then Some(R1080p)
    else if s == "max" then Some(Max)
    else None
  }

  /** The wire spelling of a result status. */
  function CaptureStatusName(st: CaptureStatus): string {
    match st
    case Success => "success"
    case Cancelled => "cancelled"
    case Failed => "error"
  }

  /**
   * Reads a string as a result status; only `success`, `cancelled` and `error`
   * are statuses. Together with `CaptureStatusName` it encodes the string-literal
   * union of `ScreenCaptureResult.status`.
   */
  function ParseCaptureStatus(s: string): (st: Option<CaptureStatus>)
    ensures st.Some? <==> s == "success" || s == "cancelled" || s == "error"
    ensures st.Some? ==> CaptureStatusName(st.value) == s
  {
    if s == "success" then Some(Success)
    else if s == "cancelled" then Some(Cancelled)
    else if s == "error" then Some(Failed)
    else None
  }

  /** Every resolution and status survives a trip through its spelling, and spellings are distinct. */
  lemma NamesRoundTrip(r: Resolution, r': Resolution, st: CaptureStatus, st': CaptureStatus)
    ensures ParseResolution(ResolutionName(r)) == Some(r)
    ensures ResolutionName(r) == ResolutionName(r') ==> r == r'
    ensures ParseCaptureStatus(CaptureStatusName(st)) == Some(st)
    ensures CaptureStatusName(st) == CaptureStatusName(st') ==> st == st'
  {
  }
}

=== FILE: home_screen.dfy ===
/**
 * The session button of the home screen: whether a session counts as
 * active, and what pressing the button does.
 */
module HomeScreen {
  import opened Options
  import opened Text
  import opened SignalTypes
  import SC = SignalingClient
  import opened Negotiation

  /** `isActive`: a session that is connecting or connected. */
  predicate IsActive(status: Status) {
    status == Connected || status == Connecting
  }

  /** A session counts as active exactly when it is neither idle nor failed. */
  lemma IsActiveCases(status: Status)
    ensures IsActive(status) <==> status != Idle && status != Error
  {
  }

  /** What `handleSessionToggle` does. */
  datatype Decision =
    | EndIt
    | Ignore
    | StartIt(sessionId: string, role: Role, endpoint: string)

  /** `endpoint.trim() || appConfig.signalingUrl`. */
  function ResolveEndpoint(endpointInput: string, signalingUrl: string): (url: string)
    ensures Trim(endpointInput) != "" ==> url == Trim(endpointInput)
    ensures AllSpace(endpointInput) ==> url == signalingUrl
  {
    var trimmed := Trim(endpointInput);
    if trimmed == "" then signalingUrl else trimmed
  }

  /**
   * `handleSessionToggle` given the current status and the text fields: end
   * an active session; otherwise ignore a blank session id; otherwise start
   * with the trimmed session id, the role unchanged and the resolved endpoint.
   */
  function Toggle(status: Status, sessionIdInput: string, role: Role, endpointInput: string, signalingUrl: string): (d: Decision)
    ensures d == EndIt <==> IsActive(status)
    ensures d == Ignore <==> !IsActive(status) && AllSpace(sessionIdInput)
    ensures d.StartIt? <==> !IsActive(status) && !AllSpace(sessionIdInput)
    ensures d.StartIt? ==>
      && d.sessionId == Trim(sessionIdInput) && d.sessionId != ""
      && !IsJsSpace(d.sessionId[0]) && !IsJsSpace(d.sessionId[|d.sessionId| - 1])
      && d.role == role
      && d.endpoint == ResolveEndpoint(endpointInput, signalingUrl)
  {
    if IsActive(status) then EndIt
    else if Trim(sessionIdInput) == "" then Ignore
    else StartIt(Trim(sessionIdInput), role, ResolveEndpoint(endpointInput, signalingUrl))
  }

  /**
   * Pressing the button against the hook: an active session is ended and
   * never started; an inactive one is started, with the join carrying the
   * trimmed session id and the role, unless the session id is blank.
   */
  function Press(s: Session, sessionIdInput: string, role: Role, endpointInput: string, signalingUrl: string, o: StartOracle): (r: Transition)
    requires SC.Valid(s.client)
    ensures SC.Valid(r.session.client)
    ensures IsActive(s.status) ==> r.session.status == Idle && r == EndSession(s)
    ensures !IsActive(s.status) && AllSpace(sessionIdInput) ==> r == Transition(s, [])
    ensures !IsActive(s.status) && !AllSpace(sessionIdInput) ==>
      && (r.session.status == Connected || r.session.status == Error)
      && NetCalls(ConnectAndJoin(s.client, ResolveEndpoint(endpointInput, signalingUrl), Trim(sessionIdInput), role)) <= r.effects
      && r.session.client.endpoint == Some(ResolveEndpoint(endpointInput, signalingUrl))
  {
    match Toggle(s.status, sessionIdInput, role, endpointInput, signalingUrl)
    case EndIt => EndSession(s)
    case Ignore => Transition(s, [])
    case StartIt(sessionId, r, endpoint) =>
      StartSessionJoinsFirst(s, sessionId, r, endpoint, o);
      StartSession(s, sessionId, r, endpoint, o)
  }

  /** Two presses on a connected session with a session id filled in: end it, then start anew. */
  lemma PressTwiceRestarts(s: Session, sessionIdInput: string, role: Role, endpointInput: string, signalingUrl: string, o: StartOracle)
    requires SC.Valid(s.client)
    requires s.status == Connected
    requires !AllSpace(sessionIdInput)
    ensures Press(s, sessionIdInput, role, endpointInput, signalingUrl, o).session.status == Idle
    ensures var ended := Press(s, sessionIdInput, role, endpointInput, signalingUrl, o).session;
      Press(ended, sessionIdInput, role, endpointInput, signalingUrl, o)
        == StartSession(ended, Trim(sessionIdInput), role, ResolveEndpoint(endpointInput, signalingUrl), o)
  {
  }
}

=== FILE: negotiation.dfy ===
/**
 * The client negotiation state machine of `useWebRtcDemo`: the status, the
 * local and remote streams, the current peer connection, the registered
 * inbound-signal handler and the signaling client they drive.
 *
 * The WebRTC library (peer connection, media, descriptions) is an oracle:
 * each call either completes or throws, as the oracle says, and a completed
 * call is recorded as an effect. Each operation runs to completion before
 * the next one starts.
 */
module Negotiation {
  import opened Options
  import opened SignalTypes
  import SC = SignalingClient

  /** `SessionStatus`. */
  datatype Status = Idle | Connecting | Connected | Error

  type TrackId = string

  /** A media stream and the ids of its tracks. */
  datatype Stream = Stream(id: string, tracks: seq<TrackId>)

  /**
   * A peer connection made by one `startSession` call. Its overridden
   * `addIceCandidate` captured that call's session id.
   */
  datatype Peer = Peer(id: nat, sessionId: string)

  /** An inbound-signal handler: a closure over the session id and role of one `startSession` call. */
  datatype Handler = Handler(id: nat, sessionId: string, role: Role)

  /** The type of a session description. */
  datatype DescriptionType = OfferDescription | AnswerDescription

  /**
   * The hook's state. `created` numbers the peer connections and handlers
   * made so far, standing for object identity.
   */
  datatype Session = Session(
    status: Status,
    localStream: Option<Stream>,
    remoteStream: Option<Stream>,
    peer: Option<Peer>,
    handler: Option<Handler>,
    client: SC.Client<Handler>,
    created: nat)

  /** Completed calls into the socket and WebRTC libraries, in order. */
  datatype Effect =
    | Net(call: SC.SocketCall)
    | NewPeer(peer: nat)
    | GetUserMedia
    | AddTrack(peer: nat, track: TrackId)
    | CreateOffer(peer: nat)
    | CreateAnswer(peer: nat)
    | SetLocal(peer: nat, kind: DescriptionType, localSdp: Option<string>)
    | SetRemote(peer: nat, kind: DescriptionType, remoteSdp: string)
    | ClosePeer(peer: nat)
    | StopTrack(track: TrackId)

  /** A session after an operation, and the effects of the operation. */
  datatype Transition = Transition(session: Session, effects: seq<Effect>)

  /** The `startSession` step that throws, if any. `AddTrackFails(i)`: adding the `i`-th track throws. */
  datatype StartStep =
    | PeerConstructionFails
    | GetUserMediaFails
    | AddTrackFails(index: nat)
    | CreateOfferFails
    | SetLocalOfferFails

  /** What the WebRTC library does during one `startSession`. */
  datatype StartOracle = StartOracle(fails: Option<StartStep>, media: Stream, offerSdp: Option<string>)

  /** The `handleSignal` step that rejects, if any. */
  datatype SignalStep = SetRemoteFails | CreateAnswerFails | SetLocalAnswerFails

  /** What the WebRTC library does while one inbound signal is handled. */
  datatype SignalOracle = SignalOracle(fails: Option<SignalStep>, answerSdp: Option<string>)

  /** The hook's initial state around a signaling client. */
  function Initial(client: SC.Client<Handler>): Session {
    Session(Idle, None, None, None, None, client, 0)
  }

  /** Socket calls as effects. */
  function NetCalls(calls: seq<SC.SocketCall>): (r: seq<Effect>)
    ensures |r| == |calls|
    ensures forall i :: 0 <= i < |calls| ==> r[i] == Net(calls[i])
  {
    seq(|calls|, i requires 0 <= i < |calls| => Net(calls[i]))
  }

  /** `track.stop()` for every track of an optional stream. */
  function StopTracks(stream: Option<Stream>): (r: seq<Effect>)
    ensures stream.None? ==> r == []
    ensures stream.Some? ==> |r| == |stream.value.tracks|
    ensures stream.Some? ==> forall i :: 0 <= i < |r| ==> r[i] == StopTrack(stream.value.tracks[i])
  {
    if stream.None? then [] else seq(|stream.value.tracks|, i requires 0 <= i < |stream.value.tracks| => StopTrack(stream.value.tracks[i]))
  }

  /** `addTrack` for each track in order, stopping before the track whose call throws. */
  function AddTracks(peer: nat, tracks: seq<TrackId>, failing: Option<nat>): (r: seq<Effect>)
    ensures |r| <= |tracks|
    ensures failing.Some? && failing.value < |tracks| ==> |r| == failing.value
    ensures !(failing.Some? && failing.value < |tracks|) ==> |r| == |tracks|
    ensures forall i :: 0 <= i < |r| ==> r[i] == AddTrack(peer, tracks[i])
  {
    var n := if failing.Some? && failing.value < |tracks| then failing.value else |tracks|;
    seq(n, i requires 0 <= i < n => AddTrack(peer, tracks[i]))
  }

  /** Whether `startSession` for `role` reaches the step the oracle makes throw. */
  predicate StartFails(o: StartOracle, role: Role) {
    match o.fails
    case None => false
    case Some(PeerConstructionFails) => true
    case Some(GetUserMediaFails) => true
    case Some(AddTrackFails(i)) => i < |o.media.tracks|
    case Some(CreateOfferFails) => role == Sender
    case Some(SetLocalOfferFails) => role == Sender
  }

  /** `StartFails` step by step, in the order `startSession` runs the steps. */
  lemma StartFailsCases(o: StartOracle, role: Role)
    ensures StartFails(o, role) <==>
      || o.fails == Some(PeerConstructionFails)
      || o.fails == Some(GetUserMediaFails)
      || AddTrackThrows(o)
      || (role == Sender && OfferStepFails(o))
  {
  }

  /** Whether one of the sender's offer steps throws. */
  predicate OfferStepFails(o: StartOracle) {
    o.fails == Some(CreateOfferFails) || o.fails == Some(SetLocalOfferFails)
  }

  /** The index of the camera track whose `addTrack` the oracle makes throw, if it names one. */
  function FailingTrack(o: StartOracle): Option<nat> {
    if o.fails.Some? && o.fails.value.AddTrackFails? then Some(o.fails.value.index) else None
  }

  /** Whether adding the camera tracks throws: the oracle names a track the stream has. */
  predicate AddTrackThrows(o: StartOracle) {
    o.fails.Some? && o.fails.value.AddTrackFails? && o.fails.value.index < |o.media.tracks|
  }

  /** The socket calls `connect(endpoint)` then `joinSession({sessionId, role})` make. */
  function ConnectAndJoin(c: SC.Client<Handler>, endpoint: string, sessionId: string, role: Role): (r: seq<SC.SocketCall>)
    requires SC.Valid(c)
    ensures |r| > 0 && r[|r| - 1] == SC.Emit(SC.Connect(c, endpoint).client.socket.value.id, SC.JoinSessionMsg(sessionId, role))
  {
    var connected := SC.Connect(c, endpoint);
    connected.calls + SC.JoinSession(connected.client, sessionId, role).calls
  }

  /** The offer the sender emits: the created offer's sdp, or the empty string when it has none. */
  function OfferSignal(sessionId: string, offerSdp: Option<string>): SignalPayload {
    SignalPayload(sessionId, Offer, Some(offerSdp.GetOr("")), None)
  }

  /** An effect `startSession` may have: it neither applies a remote description nor releases anything. */
  predicate StartEffect(e: Effect) {
    !e.SetRemote? && !e.ClosePeer? && !e.StopTrack?
  }

  /** An emit of a `signal` message. */
  predicate EmitsSignal(e: Effect) {
    e.Net? && e.call.Emit? && e.call.msg.SignalMsg?
  }

  /** Every effect is one `startSession` may have. */
  predicate AllStart(es: seq<Effect>) {
    forall i :: 0 <= i < |es| ==> StartEffect(es[i])
  }

  /** No effect emits a `signal` message. */
  predicate NoSignalEmit(es: seq<Effect>) {
    forall i :: 0 <= i < |es| ==> !EmitsSignal(es[i])
  }

  /** No effect creates an offer or sets a local description. */
  predicate NoOfferStep(es: seq<Effect>) {
    forall i :: 0 <= i < |es| ==> !es[i].CreateOffer? && !es[i].SetLocal?
  }

  /**
   * The last three effects create the offer on `peer`, set it as local
   * description and emit it as a `signal` on socket `socket`.
   */
  predicate EndsWithOffer(es: seq<Effect>, peer: Peer, socket: nat, offerSdp: Option<string>) {
    && |es| >= 3
    && es[|es| - 3] == CreateOffer(peer.id)
    && es[|es| - 2] == SetLocal(peer.id, OfferDescription, offerSdp)
    && es[|es| - 1] == Net(SC.Emit(socket, SC.SignalMsg(OfferSignal(peer.sessionId, offerSdp))))
  }

  /** Effects in front of an offer's steps leave them the last three. */
  lemma EndsWithOfferAppend(a: seq<Effect>, b: seq<Effect>, peer: Peer, offerSdp: Option<string>)
    ensures forall socket :: EndsWithOffer(b, peer, socket, offerSdp) ==> EndsWithOffer(a + b, peer, socket, offerSdp)
  {
    forall socket | EndsWithOffer(b, peer, socket, offerSdp)
      ensures EndsWithOffer(a + b, peer, socket, offerSdp)
    {
      var n := |a + b|;
      assert (a + b)[n - 3] == b[|b| - 3];
      assert (a + b)[n - 2] == b[|b| - 2];
      assert (a + b)[n - 1] == b[|b| - 1];
    }
  }

  /** Every effect of a prefix is an effect of the whole. */
  lemma PrefixMembers(a: seq<Effect>, b: seq<Effect>)
    ensures a <= b ==> forall e :: e in a ==> e in b
  {
    if a <= b {
      forall e | e in a
        ensures e in b
      {
        var i :| 0 <= i < |a| && a[i] == e;
        assert b[i] == e;
      }
    }
  }

  /** A common front keeps a prefix a prefix. */
  lemma PrefixAppend(front: seq<Effect>, a: seq<Effect>, b: seq<Effect>)
    ensures a <= b ==> front + a <= front + b
  {
    if a <= b {
      assert front + b == (front + a) + b[|a|..];
    }
  }

  /** The properties of effect sequences survive concatenation. */
  lemma ConcatEffects(a: seq<Effect>, b: seq<Effect>)
    ensures AllStart(a) && AllStart(b) ==> AllStart(a + b)
    ensures NoSignalEmit(a) && NoSignalEmit(b) ==> NoSignalEmit(a + b)
    ensures NoOfferStep(a) && NoOfferStep(b) ==> NoOfferStep(a + b)
  {
    if NoOfferStep(a) && NoOfferStep(b) {
      forall i | 0 <= i < |a + b|
        ensures !(a + b)[i].CreateOffer? && !(a + b)[i].SetLocal?
      {
        if i < |a| { assert (a + b)[i] == a[i]; } else { assert (a + b)[i] == b[i - |a|]; }
      }
    }
    if AllStart(a) && AllStart(b) {
      forall i | 0 <= i < |a + b|
        ensures StartEffect((a + b)[i])
      {
        if i < |a| { assert (a + b)[i] == a[i]; } else { assert (a + b)[i] == b[i - |a|]; }
      }
    }
    if NoSignalEmit(a) && NoSignalEmit(b) {
      forall i | 0 <= i < |a + b|
        ensures !EmitsSignal((a + b)[i])
      {
        if i < |a| { assert (a + b)[i] == a[i]; } else { assert (a + b)[i] == b[i - |a|]; }
      }
    }
  }

  /**
   * The sender's last steps: create the offer, set it as local description
   * and emit it. Status `connected` unless one of the two calls throws; the
   * answer is not awaited.
   */
  function SendOffer(listening: Session, peer: Peer, o: StartOracle): (r: Transition)
    requires SC.Valid(listening.client)
    ensures r.session == listening.(status := r.session.status)
    ensures r.session.status == Connected <==> !OfferStepFails(o)
    ensures r.session.status == Error <==> OfferStepFails(o)
    ensures AllStart(r.effects)
    ensures r.session.status == Connected ==> |r.effects| >= 2
    ensures r.session.status == Connected && listening.client.socket.Some? ==>
      r.effects[|r.effects| - 1]
        == Net(SC.Emit(listening.client.socket.value.id, SC.SignalMsg(OfferSignal(peer.sessionId, o.offerSdp))))
    ensures o.fails == Some(CreateOfferFails) ==> r.effects == []
    ensures o.fails == Some(SetLocalOfferFails) ==> r.effects == [CreateOffer(peer.id)]
    ensures OfferStepFails(o) ==> NoSignalEmit(r.effects)
    ensures !OfferStepFails(o) ==>
      |r.effects| >= 2 && r.effects[..2] == [CreateOffer(peer.id), SetLocal(peer.id, OfferDescription, o.offerSdp)]
    ensures !OfferStepFails(o) && listening.client.socket.Some? ==>
      EndsWithOffer(r.effects, peer, listening.client.socket.value.id, o.offerSdp)
  {
    if o.fails == Some(CreateOfferFails) then
      Transition(listening.(status := Error), [])
    else if o.fails == Some(SetLocalOfferFails) then
      Transition(listening.(status := Error), [CreateOffer(peer.id)])
    else
      var emitted := SC.EmitSignal(listening.client, OfferSignal(peer.sessionId, o.offerSdp));
      Transition(listening.(status := Connected),
                 [CreateOffer(peer.id), SetLocal(peer.id, OfferDescription, o.offerSdp)] + NetCalls(emitted.calls))
  }

  /** Registers a new handler for the session and role with the signaling client. */
  function Listen(withMedia: Session, sessionId: string, role: Role): (r: Session)
    requires SC.Valid(withMedia.client)
    ensures SC.Valid(r.client)
    ensures r == withMedia.(handler := r.handler, client := r.client, created := withMedia.created + 1)
    ensures r.handler == Some(Handler(withMedia.created, sessionId, role))
    ensures r.client.socket.None? <==> withMedia.client.socket.None?
    ensures r.client.socket.Some? ==> r.client.socket.value.id == withMedia.client.socket.value.id
    ensures r.client.endpoint == withMedia.client.endpoint
    ensures withMedia.client.socket.Some? ==> SC.Listeners(r.client)[r.handler.value] > 0
  {
    var h := Handler(withMedia.created, sessionId, role);
    withMedia.(handler := Some(h), client := SC.OnSignal(withMedia.client, h), created := withMedia.created + 1)
  }

  /** The signaling client kept its socket (or its lack of one) and its endpoint. */
  predicate SameConnection(c: SC.Client<Handler>, c': SC.Client<Handler>) {
    && (c'.socket.None? <==> c.socket.None?)
    && (c'.socket.Some? ==> c'.socket.value.id == c.socket.value.id)
    && c'.endpoint == c.endpoint
  }

  /**
   * The steps after the camera stream's tracks were added: register the
   * handler; a sender then sends its offer. `connected` unless the offer
   * steps throw.
   */
  function AfterTracks(withMedia: Session, peer: Peer, role: Role, o: StartOracle): (r: Transition)
    requires SC.Valid(withMedia.client)
    ensures SC.Valid(r.session.client)
    ensures r.session.status == Connected || r.session.status == Error
    ensures r.session.status == Error <==> role == Sender && OfferStepFails(o)
    ensures r.session.peer == withMedia.peer && r.session.localStream == withMedia.localStream
    ensures r.session.remoteStream == withMedia.remoteStream
    ensures SameConnection(withMedia.client, r.session.client)
    ensures r.session.handler == Some(Handler(withMedia.created, peer.sessionId, role))
    ensures withMedia.client.socket.Some? ==> SC.Listeners(r.session.client)[r.session.handler.value] > 0
    ensures AllStart(r.effects)
    ensures r.session.status == Error ==> NoSignalEmit(r.effects)
    ensures r.session.status == Connected && role == Sender ==>
      |r.effects| >= 2 && r.effects[..2] == [CreateOffer(peer.id), SetLocal(peer.id, OfferDescription, o.offerSdp)]
    ensures r.session.status == Connected && role == Sender && withMedia.client.socket.Some? ==>
      EndsWithOffer(r.effects, peer, withMedia.client.socket.value.id, o.offerSdp)
    ensures role == Receiver ==> r.effects == []
  {
    var listening := Listen(withMedia, peer.sessionId, role);
    if role == Sender then SendOffer(listening, peer, o)
    else Transition(listening.(status := Connected), [])
  }

  /**
   * The steps after the camera stream was acquired: add its tracks in order,
   * stopping at the one that throws, then `AfterTracks`.
   */
  function AfterMedia(withMedia: Session, peer: Peer, role: Role, o: StartOracle): (r: Transition)
    requires SC.Valid(withMedia.client)
    requires o.fails != Some(PeerConstructionFails) && o.fails != Some(GetUserMediaFails)
    ensures SC.Valid(r.session.client)
    ensures r.session.status == Connected || r.session.status == Error
    ensures r.session.status == Error <==> AddTrackThrows(o) || (role == Sender && OfferStepFails(o))
    ensures r.session.peer == withMedia.peer && r.session.remoteStream == withMedia.remoteStream
    ensures r.session.localStream == withMedia.localStream
    ensures SameConnection(withMedia.client, r.session.client)
    ensures r.session.status == Connected ==> r.session.handler == Some(Handler(withMedia.created, peer.sessionId, role))
    ensures r.session.status == Connected && withMedia.client.socket.Some? ==>
      SC.Listeners(r.session.client)[r.session.handler.value] > 0
    ensures AllStart(r.effects)
    ensures r.session.status == Error ==> NoSignalEmit(r.effects)
    ensures r.session.status == Connected && role == Sender && withMedia.client.socket.Some? ==>
      EndsWithOffer(r.effects, peer, withMedia.client.socket.value.id, o.offerSdp)
    ensures role == Receiver ==> NoSignalEmit(r.effects) && NoOfferStep(r.effects)
    ensures AddTracks(peer.id, o.media.tracks, FailingTrack(o)) <= r.effects
  {
    var added := AddTracks(peer.id, o.media.tracks, FailingTrack(o));
    assert AllStart(added) && NoSignalEmit(added) && NoOfferStep(added);
    if AddTrackThrows(o) then
      Transition(withMedia.(status := Error), added)
    else
      var rest := AfterTracks(withMedia, peer, role, o);
      ConcatEffects(added, rest.effects);
      EndsWithOfferAppend(added, rest.effects, peer, o.offerSdp);
      Transition(rest.session, added + rest.effects)
  }

  /**
   * The steps after the peer connection exists: acquire the camera stream,
   * then `AfterMedia`.
   */
  function AfterPeer(withPeer: Session, peer: Peer, role: Role, o: StartOracle): (r: Transition)
    requires SC.Valid(withPeer.client)
    requires o.fails != Some(PeerConstructionFails)
    ensures SC.Valid(r.session.client)
    ensures r.session.status == Connected || r.session.status == Error
    ensures r.session.status == Error <==> o.fails == Some(GetUserMediaFails) || AddTrackThrows(o) || (role == Sender && OfferStepFails(o))
    ensures r.session.peer == withPeer.peer && r.session.remoteStream == withPeer.remoteStream
    ensures o.fails == Some(GetUserMediaFails) ==> r.session.localStream == withPeer.localStream
    ensures o.fails != Some(GetUserMediaFails) ==> r.session.localStream == Some(o.media)
    ensures SameConnection(withPeer.client, r.session.client)
    ensures r.session.status == Connected ==> r.session.handler == Some(Handler(withPeer.created, peer.sessionId, role))
    ensures r.session.status == Connected && withPeer.client.socket.Some? ==>
      SC.Listeners(r.session.client)[r.session.handler.value] > 0
    ensures AllStart(r.effects)
    ensures r.session.status == Error ==> NoSignalEmit(r.effects)
    ensures r.session.status == Connected && role == Sender && withPeer.client.socket.Some? ==>
      EndsWithOffer(r.effects, peer, withPeer.client.socket.value.id, o.offerSdp)
    ensures role == Receiver ==> NoSignalEmit(r.effects) && NoOfferStep(r.effects)
    ensures o.fails == Some(GetUserMediaFails) ==> r.effects == []
    ensures o.fails != Some(GetUserMediaFails) ==>
      [GetUserMedia] + AddTracks(peer.id, o.media.tracks, FailingTrack(o)) <= r.effects
  {
    if o.fails == Some(GetUserMediaFails) then
      Transition(withPeer.(status := Error), [])
    else
      var rest := AfterMedia(withPeer.(localStream := Some(o.media)), peer, role, o);
      ConcatEffects([GetUserMedia], rest.effects);
      PrefixAppend([GetUserMedia], AddTracks(peer.id, o.media.tracks, FailingTrack(o)), rest.effects);
      EndsWithOfferAppend([GetUserMedia], rest.effects, peer, o.offerSdp);
      Transition(rest.session, [GetUserMedia] + rest.effects)
  }

  /**
   * `startSession({sessionId, role, endpoint})`: status `connecting`; connect
   * and join; create the peer connection; acquire the camera stream and add
   * its tracks; register the inbound-signal handler; a sender then creates,
   * sets and emits an offer. Status ends `connected` when nothing threw and
   * `error` otherwise, with nothing released.
   */
  function StartSession(s: Session, sessionId: string, role: Role, endpoint: string, o: StartOracle): (r: Transition)
    requires SC.Valid(s.client)
    ensures SC.Valid(r.session.client)
    ensures r.session.status == Connected <==> !StartFails(o, role)
    ensures r.session.status == Error <==> StartFails(o, role)
    ensures r.session.client.socket.Some? && r.session.client.endpoint == Some(endpoint)
    ensures r.session.remoteStream == s.remoteStream
    ensures r.session.status == Connected ==>
      && r.session.localStream == Some(o.media)
      && r.session.handler == Some(Handler(s.created + 1, sessionId, role))
      && SC.Listeners(r.session.client)[r.session.handler.value] > 0
  {
    StartFailsCases(o, role);
    var connecting := s.(status := Connecting, client := SC.Connect(s.client, endpoint).client);
    var e0 := NetCalls(ConnectAndJoin(s.client, endpoint, sessionId, role));
    if o.fails == Some(PeerConstructionFails) then
      Transition(connecting.(status := Error), e0)
    else
      var peer := Peer(s.created, sessionId);
      var withPeer := connecting.(peer := Some(peer), created := s.created + 1);
      var rest := AfterPeer(withPeer, peer, role, o);
      Transition(rest.session, e0 + [NewPeer(peer.id)] + rest.effects)
  }

  /** A start that constructs its peer connection: the connect and join calls, the construction, then `AfterPeer`. */
  lemma StartShape(s: Session, sessionId: string, role: Role, endpoint: string, o: StartOracle)
    requires SC.Valid(s.client)
    requires o.fails != Some(PeerConstructionFails)
    ensures var rest := AfterPeer(s.(status := Connecting, client := SC.Connect(s.client, endpoint).client,
                                     peer := Some(Peer(s.created, sessionId)), created := s.created + 1),
                                  Peer(s.created, sessionId), role, o);
      StartSession(s, sessionId, role, endpoint, o)
        == Transition(rest.session, NetCalls(ConnectAndJoin(s.client, endpoint, sessionId, role)) + [NewPeer(s.created)] + rest.effects)
  {
  }

  /**
   * Starting connects and joins before anything else, then constructs the
   * peer connection (unless that throws) bound to the session id.
   */
  lemma StartSessionJoinsFirst(s: Session, sessionId: string, role: Role, endpoint: string, o: StartOracle)
    requires SC.Valid(s.client)
    ensures var r := StartSession(s, sessionId, role, endpoint, o);
      NetCalls(ConnectAndJoin(s.client, endpoint, sessionId, role)) <= r.effects
    ensures var r := StartSession(s, sessionId, role, endpoint, o);
      o.fails == Some(PeerConstructionFails) ==> r.session.peer == s.peer && r.session.localStream == s.localStream
    ensures var r := StartSession(s, sessionId, role, endpoint, o);
      var n := |ConnectAndJoin(s.client, endpoint, sessionId, role)|;
      o.fails != Some(PeerConstructionFails) ==>
        && r.session.peer == Some(Peer(s.created, sessionId))
        && |r.effects| > n && r.effects[n] == NewPeer(s.created)
  {
  }

  /** Starting releases nothing and applies no remote description. */
  lemma StartSessionEffects(s: Session, sessionId: string, role: Role, endpoint: string, o: StartOracle)
    requires SC.Valid(s.client)
    ensures var r := StartSession(s, sessionId, role, endpoint, o);
      AllStart(r.effects)
  {
    var e0 := NetCalls(ConnectAndJoin(s.client, endpoint, sessionId, role));
    assert AllStart(e0);
    if o.fails != Some(PeerConstructionFails) {
      var peer := Peer(s.created, sessionId);
      var withPeer := s.(status := Connecting, client := SC.Connect(s.client, endpoint).client, peer := Some(peer), created := s.created + 1);
      var rest := AfterPeer(withPeer, peer, role, o);
      StartShape(s, sessionId, role, endpoint, o);
      ConcatEffects(e0, [NewPeer(peer.id)]);
      ConcatEffects(e0 + [NewPeer(peer.id)], rest.effects);
    }
  }

  /**
   * A sender that connects has, as its last three steps, created the offer on
   * its new peer connection, set it as local description and emitted it; a
   * start that fails emits no signal, so no offer; a receiver emits no
   * signal, creates no offer and sets no local description while starting.
   */
  lemma StartSessionOffers(s: Session, sessionId: string, role: Role, endpoint: string, o: StartOracle)
    requires SC.Valid(s.client)
    ensures var r := StartSession(s, sessionId, role, endpoint, o);
      r.session.status == Connected && role == Sender ==>
        EndsWithOffer(r.effects, Peer(s.created, sessionId), r.session.client.socket.value.id, o.offerSdp)
    ensures var r := StartSession(s, sessionId, role, endpoint, o);
      role == Receiver ==> NoSignalEmit(r.effects)
    ensures var r := StartSession(s, sessionId, role, endpoint, o);
      role == Receiver ==> forall e :: e in r.effects ==> !e.CreateOffer? && !e.SetLocal?
    ensures var r := StartSession(s, sessionId, role, endpoint, o);
      StartFails(o, role) ==> NoSignalEmit(r.effects)
  {
    StartFailsCases(o, role);
    var e0 := NetCalls(ConnectAndJoin(s.client, endpoint, sessionId, role));
    assert NoSignalEmit(e0) && NoOfferStep(e0);
    if o.fails != Some(PeerConstructionFails) {
      var peer := Peer(s.created, sessionId);
      var withPeer := s.(status := Connecting, client := SC.Connect(s.client, endpoint).client, peer := Some(peer), created := s.created + 1);
      var rest := AfterPeer(withPeer, peer, role, o);
      StartShape(s, sessionId, role, endpoint, o);
      ConcatEffects(e0, [NewPeer(peer.id)]);
      ConcatEffects(e0 + [NewPeer(peer.id)], rest.effects);
    }
    StartSessionOfferTail(s, sessionId, role, endpoint, o);
  }

  /** The offer steps of a connected sender are the last three effects of its start. */
  lemma StartSessionOfferTail(s: Session, sessionId: string, role: Role, endpoint: string, o: StartOracle)
    requires SC.Valid(s.client)
    ensures var r := StartSession(s, sessionId, role, endpoint, o);
      r.session.status == Connected && role == Sender ==>
        EndsWithOffer(r.effects, Peer(s.created, sessionId), r.session.client.socket.value.id, o.offerSdp)
  {
    if o.fails != Some(PeerConstructionFails) {
      var e0 := NetCalls(ConnectAndJoin(s.client, endpoint, sessionId, role));
      var peer := Peer(s.created, sessionId);
      var withPeer := s.(status := Connecting, client := SC.Connect(s.client, endpoint).client, peer := Some(peer), created := s.created + 1);
      var rest := AfterPeer(withPeer, peer, role, o);
      StartShape(s, sessionId, role, endpoint, o);
      EndsWithOfferAppend(e0 + [NewPeer(peer.id)], rest.effects, peer, o.offerSdp);
    }
  }

  /**
   * Unless constructing the peer connection throws, a start next acquires the
   * camera stream (unless that throws) and adds its tracks to the new peer
   * connection in order, up to the one whose `addTrack` throws.
   */
  lemma StartSessionMedia(s: Session, sessionId: string, role: Role, endpoint: string, o: StartOracle)
    requires SC.Valid(s.client)
    ensures var r := StartSession(s, sessionId, role, endpoint, o);
      o.fails == Some(GetUserMediaFails) ==>
        r.effects == NetCalls(ConnectAndJoin(s.client, endpoint, sessionId, role)) + [NewPeer(s.created)]
    ensures var r := StartSession(s, sessionId, role, endpoint, o);
      o.fails != Some(PeerConstructionFails) && o.fails != Some(GetUserMediaFails) ==>
        NetCalls(ConnectAndJoin(s.client, endpoint, sessionId, role)) + [NewPeer(s.created), GetUserMedia]
          + AddTracks(s.created, o.media.tracks, FailingTrack(o)) <= r.effects
  {
    var r := StartSession(s, sessionId, role, endpoint, o);
    var e0 := NetCalls(ConnectAndJoin(s.client, endpoint, sessionId, role));
    if o.fails != Some(PeerConstructionFails) {
      var peer := Peer(s.created, sessionId);
      var withPeer := s.(status := Connecting, client := SC.Connect(s.client, endpoint).client, peer := Some(peer), created := s.created + 1);
      var rest := AfterPeer(withPeer, peer, role, o);
      var front := e0 + [NewPeer(peer.id)];
      StartShape(s, sessionId, role, endpoint, o);
      if o.fails == Some(GetUserMediaFails) {
        assert front + [] == front;
      } else {
        var added := AddTracks(s.created, o.media.tracks, FailingTrack(o));
        var media := [GetUserMedia] + added;
        PrefixAppend(front, media, rest.effects);
        assert e0 + [NewPeer(s.created), GetUserMedia] + added == front + media;
      }
    }
  }

  /** A start without any failure acquires the camera and adds every camera track to the new peer connection. */
  lemma StartSessionAddsEveryTrack(s: Session, sessionId: string, role: Role, endpoint: string, o: StartOracle)
    requires SC.Valid(s.client)
    ensures var r := StartSession(s, sessionId, role, endpoint, o);
      o.fails.None? ==> GetUserMedia in r.effects && forall t :: t in o.media.tracks ==> AddTrack(s.created, t) in r.effects
  {
    if o.fails.None? {
      StartSessionMedia(s, sessionId, role, endpoint, o);
      var front := NetCalls(ConnectAndJoin(s.client, endpoint, sessionId, role)) + [NewPeer(s.created), GetUserMedia];
      EveryTrackAdded(front, s.created, o.media.tracks, StartSession(s, sessionId, role, endpoint, o).effects);
    }
  }

  /** Effects that begin with `front` and then every track's `addTrack` hold each of them. */
  lemma EveryTrackAdded(front: seq<Effect>, peer: nat, tracks: seq<TrackId>, es: seq<Effect>)
    requires |front| > 0 && front + AddTracks(peer, tracks, None) <= es
    ensures front[|front| - 1] in es
    ensures forall t :: t in tracks ==> AddTrack(peer, t) in es
  {
    var all := front + AddTracks(peer, tracks, None);
    assert es[|front| - 1] == all[|front| - 1] == front[|front| - 1];
    forall t | t in tracks
      ensures AddTrack(peer, t) in es
    {
      var i :| 0 <= i < |tracks| && tracks[i] == t;
      assert es[|front| + i] == all[|front| + i] == AddTrack(peer, t);
    }
  }


  /** The dispatch table of `handleSignal`: which (signal type, role) pairs it acts on. */
  predicate Dispatched(payload: SignalPayload, role: Role) {
    match payload.kind
    case Offer => role == Receiver
    case Answer => role == Sender
    case Candidate => payload.candidate.Some?
  }

  /** The answer a receiver emits: the created answer's sdp, or the empty string when it has none. */
  function AnswerSignal(sessionId: string, answerSdp: Option<string>): SignalPayload {
    SignalPayload(sessionId, Answer, Some(answerSdp.GetOr("")), None)
  }

  /**
   * The overridden `addIceCandidate`: instead of handing the candidate to
   * the peer connection it emits it as a `candidate` signal for the session
   * the peer connection was made for, and always resolves.
   */
  function AddIceCandidate(s: Session, peer: Peer, candidate: IceCandidate): (r: seq<Effect>)
    ensures s.client.socket.None? ==> r == []
    ensures s.client.socket.Some? ==>
      r == [Net(SC.Emit(s.client.socket.value.id, SC.SignalMsg(SignalPayload(peer.sessionId, Candidate, None, Some(candidate)))))]
  {
    NetCalls(SC.EmitSignal(s.client, SignalPayload(peer.sessionId, Candidate, None, Some(candidate))).calls)
  }

  /**
   * `handleSignal(payload)` of handler `h` against the current peer
   * connection. It never changes the session: a rejected step only ends the
   * handler early (the rejection is not caught, so status stays as it is).
   */
  function HandleSignal(s: Session, h: Handler, payload: SignalPayload, o: SignalOracle): (r: Transition)
    ensures r.session == s
    ensures s.peer.None? ==> r.effects == []
    ensures !Dispatched(payload, h.role) ==> r.effects == []
    ensures forall i :: 0 <= i < |r.effects| && r.effects[i].SetRemote? ==>
      && Dispatched(payload, h.role) && payload.kind != Candidate
      && r.effects[i] == SetRemote(s.peer.value.id, if payload.kind == Offer then OfferDescription else AnswerDescription,
                                   payload.sdp.GetOr(""))
    ensures forall i :: 0 <= i < |r.effects| && EmitsSignal(r.effects[i]) ==>
      || (payload.kind == Offer && h.role == Receiver
          && r.effects[i].call.msg.payload == AnswerSignal(h.sessionId, o.answerSdp))
      || (payload.kind == Candidate
          && r.effects[i].call.msg.payload == SignalPayload(s.peer.value.sessionId, Candidate, None, payload.candidate))
    ensures s.peer.Some? && payload.kind == Offer && h.role == Receiver && o.fails.None? && s.client.socket.Some? ==>
      r.effects == [SetRemote(s.peer.value.id, OfferDescription, payload.sdp.GetOr("")),
                    CreateAnswer(s.peer.value.id),
                    SetLocal(s.peer.value.id, AnswerDescription, o.answerSdp),
                    Net(SC.Emit(s.client.socket.value.id, SC.SignalMsg(AnswerSignal(h.sessionId, o.answerSdp))))]
    ensures s.peer.Some? && payload.kind == Candidate && payload.candidate.Some? ==>
      r.effects == AddIceCandidate(s, s.peer.value, payload.candidate.value)
    ensures s.peer.Some? && payload.kind == Offer && h.role == Receiver ==>
      && (o.fails.Some? ==> NoSignalEmit(r.effects))
      && (o.fails == Some(SetRemoteFails) ==> r.effects == [])
      && (o.fails == Some(CreateAnswerFails) ==>
            r.effects == [SetRemote(s.peer.value.id, OfferDescription, payload.sdp.GetOr(""))])
      && (o.fails == Some(SetLocalAnswerFails) ==>
            r.effects == [SetRemote(s.peer.value.id, OfferDescription, payload.sdp.GetOr("")), CreateAnswer(s.peer.value.id)])
    ensures s.peer.Some? && payload.kind == Answer && h.role == Sender ==>
      r.effects == if o.fails == Some(SetRemoteFails) then []
                   else [SetRemote(s.peer.value.id, AnswerDescription, payload.sdp.GetOr(""))]
  {
    if s.peer.None? then
      Transition(s, [])
    else
      var pc := s.peer.value;
      if payload.kind == Offer && h.role == Receiver then
        var remote := [SetRemote(pc.id, OfferDescription, payload.sdp.GetOr(""))];
        match o.fails
        case Some(SetRemoteFails) => Transition(s, [])
        case Some(CreateAnswerFails) => Transition(s, remote)
        case Some(SetLocalAnswerFails) => Transition(s, remote + [CreateAnswer(pc.id)])
        case None =>
          var emitted := SC.EmitSignal(s.client, AnswerSignal(h.sessionId, o.answerSdp));
          Transition(s, remote + [CreateAnswer(pc.id), SetLocal(pc.id, AnswerDescription, o.answerSdp)]
                        + NetCalls(emitted.calls))
      else if payload.kind == Answer && h.role == Sender then
        if o.fails == Some(SetRemoteFails) then
          Transition(s, [])
        else
          Transition(s, [SetRemote(pc.id, AnswerDescription, payload.sdp.GetOr(""))])
      else if payload.kind == Candidate && payload.candidate.Some? then
        Transition(s, AddIceCandidate(s, pc, payload.candidate.value))
      else
        Transition(s, [])
  }

  /**
   * `ontrack`: the first stream of the event, when there is one, becomes the
   * remote stream. Nothing else changes; status in particular does not.
   */
  function OnTrack(s: Session, streams: seq<Stream>): (r: Session)
    ensures r.status == s.status
    ensures r == s.(remoteStream := r.remoteStream)
    ensures |streams| > 0 ==> r.remoteStream == Some(streams[0])
    ensures |streams| == 0 ==> r == s
  {
    if |streams| > 0 then s.(remoteStream := Some(streams[0])) else s
  }

  /** Every track of an optional stream. */
  function TracksOf(stream: Option<Stream>): seq<TrackId> {
    if stream.Some? then stream.value.tracks else []
  }

  /** Closing the peer connection and stopping every track of both streams. */
  function ReleaseMedia(s: Session): (r: seq<Effect>)
    ensures s.peer.Some? ==> ClosePeer(s.peer.value.id) in r
    ensures forall t :: t in TracksOf(s.localStream) || t in TracksOf(s.remoteStream) ==> StopTrack(t) in r
    ensures forall e :: e in r ==> e.ClosePeer? || e.StopTrack?
    ensures forall e :: e in r && e.StopTrack? ==> e.track in TracksOf(s.localStream) || e.track in TracksOf(s.remoteStream)
    ensures forall e :: e in r && e.ClosePeer? ==> s.peer.Some? && e.peer == s.peer.value.id
  {
    var closed := if s.peer.Some? then [ClosePeer(s.peer.value.id)] else [];
    var local := StopTracks(s.localStream);
    var remote := StopTracks(s.remoteStream);
    assert forall t :: t in TracksOf(s.localStream) ==> StopTrack(t) in local;
    assert forall t :: t in TracksOf(s.remoteStream) ==> StopTrack(t) in remote;
    closed + local + remote
  }

  /**
   * `cleanup()` (and `endSession()`): unregister and forget the handler,
   * close and forget the peer connection, stop every track of both streams,
   * forget both streams, disconnect the signaling client, status `idle`.
   */
  function EndSession(s: Session): (r: Transition)
    requires SC.Valid(s.client)
    ensures SC.Valid(r.session.client)
    ensures r.session.status == Idle
    ensures r.session.localStream.None? && r.session.remoteStream.None?
    ensures r.session.peer.None? && r.session.handler.None?
    ensures r.session.client.socket.None? && SC.Listeners(r.session.client) == multiset{}
    ensures r.session.client.endpoint == s.client.endpoint
    ensures s.peer.Some? ==> ClosePeer(s.peer.value.id) in r.effects
    ensures forall t :: t in TracksOf(s.localStream) || t in TracksOf(s.remoteStream) ==> StopTrack(t) in r.effects
    ensures forall e :: e in r.effects && e.StopTrack? ==> e.track in TracksOf(s.localStream) || e.track in TracksOf(s.remoteStream)
    ensures forall e :: e in r.effects && e.ClosePeer? ==> s.peer.Some? && e.peer == s.peer.value.id
    ensures s.client.socket.Some? ==> Net(SC.Close(s.client.socket.value.id)) in r.effects
    ensures forall e :: e in r.effects ==> e.ClosePeer? || e.StopTrack? || (e.Net? && !e.call.Emit? && !e.call.Open?)
  {
    var unhooked := if s.handler.Some? then SC.OffSignal(s.client, s.handler.value) else s.client;
    var disconnected := SC.Disconnect(unhooked);
    var net := NetCalls(disconnected.calls);
    assert forall e :: e in net ==> e.Net? && !e.call.Emit? && !e.call.Open?;
    assert s.client.socket.Some? ==>
      unhooked.socket.Some? && unhooked.socket.value.id == s.client.socket.value.id
      && net[1] == Net(SC.Close(s.client.socket.value.id));
    Transition(Session(Idle, None, None, None, None, disconnected.client, s.created), ReleaseMedia(s) + net)
  }
}

=== FILE: negotiation_lemmas.dfy ===
/**
 * What the negotiation state machine keeps true across any sequence of
 * operations, and how its operations relate.
 */
module NegotiationLemmas {
  import opened Options
  import opened SignalTypes
  import SC = SignalingClient
  import opened Negotiation

  /**
   * `idle` holds nothing: no peer connection, handler, stream or socket.
   * `connected` holds a peer connection, a local stream, a socket and a
   * handler registered on it. (`error` may hold anything: a failed start
   * releases nothing.)
   */
  predicate Consistent(s: Session) {
    && SC.Valid(s.client)
    && (s.status == Idle ==>
          s.peer.None? && s.handler.None? && s.localStream.None? && s.remoteStream.None? && s.client.socket.None?)
    && (s.status == Connected ==>
          s.peer.Some? && s.handler.Some? && s.localStream.Some? && s.client.socket.Some?
          && SC.Listeners(s.client)[s.handler.value] > 0)
  }

  /** Something that happens to the hook: a UI call, an inbound signal, a track event. */
  datatype Event =
    | Start(sessionId: string, role: Role, endpoint: string, start: StartOracle)
    | Inbound(handler: Handler, payload: SignalPayload, answer: SignalOracle)
    | Track(streams: seq<Stream>)
    | End

  /**
   * One event. A signal reaches only a handler registered on the socket; a
   * track event comes only from the current peer connection.
   */
  function Step(s: Session, e: Event): Session
    requires SC.Valid(s.client)
  {
    match e
    case Start(sessionId, role, endpoint, o) => StartSession(s, sessionId, role, endpoint, o).session
    case Inbound(h, payload, o) =>
      if SC.Listeners(s.client)[h] > 0 then HandleSignal(s, h, payload, o).session else s
    case Track(streams) => if s.peer.Some? then OnTrack(s, streams) else s
    case End => EndSession(s).session
  }

  /** The state after the events, in order, from a consistent state; it is consistent too. */
  function Run(s: Session, events: seq<Event>): (r: Session)
    requires Consistent(s)
    ensures Consistent(r)
    decreases |events|
  {
    if |events| == 0 then s
    else
      var next := Step(s, events[0]);
      StepConsistent(s, events[0]);
      Run(next, events[1..])
  }

  /** Every single event keeps the state consistent. */
  lemma StepConsistent(s: Session, e: Event)
    requires Consistent(s)
    ensures Consistent(Step(s, e))
  {
  }

  /** The hook starts consistent. */
  lemma InitialConsistent(c: SC.Client<Handler>)
    requires c.socket.None? && SC.Valid(c)
    ensures Consistent(Initial(c))
  {
  }

  /** A second `endSession` finds nothing left to release and does nothing. */
  lemma EndSessionIdempotent(s: Session)
    requires SC.Valid(s.client)
    ensures EndSession(EndSession(s).session) == Transition(EndSession(s).session, [])
  {
  }

  /** After `endSession`, inbound signals are ignored. */
  lemma NoSignalHandlingAfterEnd(s: Session, h: Handler, payload: SignalPayload, o: SignalOracle)
    requires SC.Valid(s.client)
    ensures HandleSignal(EndSession(s).session, h, payload, o) == Transition(EndSession(s).session, [])
  {
  }

  /**
   * A start whose every step succeeds ends `connected` for both roles, and
   * neither role applies a remote description while starting: the sender
   * does not wait for the answer.
   */
  lemma StartWithoutFailureConnects(s: Session, sessionId: string, role: Role, endpoint: string, o: StartOracle)
    requires SC.Valid(s.client)
    requires o.fails.None?
    ensures StartSession(s, sessionId, role, endpoint, o).session.status == Connected
    ensures forall e :: e in StartSession(s, sessionId, role, endpoint, o).effects ==> !e.SetRemote?
  {
    var r := StartSession(s, sessionId, role, endpoint, o);
    StartSessionEffects(s, sessionId, role, endpoint, o);
    forall e | e in r.effects
      ensures !e.SetRemote?
    {
      var i :| 0 <= i < |r.effects| && r.effects[i] == e;
      assert StartEffect(r.effects[i]);
    }
  }

  /**
   * The dispatch on (type, role) as the receiver and sender see it: an offer
   * moves only a receiver to answer, an answer is applied only by a sender.
   */
  lemma OfferAnswerExchange(s: Session, h: Handler, offerSdp: Option<string>, o: SignalOracle)
    requires s.peer.Some? && s.client.socket.Some?
    requires o.fails.None?
    ensures h.role == Receiver ==>
      HandleSignal(s, h, SignalPayload(h.sessionId, Offer, offerSdp, None), o).effects[3]
        == Net(SC.Emit(s.client.socket.value.id, SC.SignalMsg(AnswerSignal(h.sessionId, o.answerSdp))))
    ensures h.role == Sender ==>
      HandleSignal(s, h, SignalPayload(h.sessionId, Offer, offerSdp, None), o).effects == []
    ensures h.role == Sender ==>
      HandleSignal(s, h, SignalPayload(h.sessionId, Answer, offerSdp, None), o).effects
        == [SetRemote(s.peer.value.id, AnswerDescription, offerSdp.GetOr(""))]
    ensures h.role == Receiver ==>
      HandleSignal(s, h, SignalPayload(h.sessionId, Answer, offerSdp, None), o).effects == []
  {
  }
}

=== FILE: options.dfy ===
/** Optional values: the model's stand-in for TypeScript's `T | undefined` and `T | null`. */
module Options {

  datatype Option<+T> = None | Some(value: T) {

    /** JavaScript's `x ?? d`: the value when present, otherwise the default. */
    function GetOr(default: T): T {
      match this
      case Some(v) => v
      case None => default
    }
  }
}

=== FILE: relay.dfy ===
/**
 * The signaling relay: a registry from session id to the set of socket ids
 * that joined it (`activeRooms`), and the three socket handlers
 * `join-session`, `signal` and `disconnecting`.
 *
 * Socket.IO routes by its own rooms; the registry is the bookkeeping copy.
 * The two agree as long as no session id equals the id of any socket, live
 * or disconnected: every socket also sits in a room named after itself,
 * which the registry does not record, and a registry entry named after a
 * socket is never removed. Routing here reads the registry. A broadcast is a
 * set of deliveries: which socket received which event through which room.
 */
module Relay {
  import opened SignalTypes

  type SocketId = string
  type SessionId = string

  /** Events the relay sends to sockets. The role of `peer-joined` is whatever the joiner sent. */
  datatype Event =
    | PeerJoined(socketId: SocketId, role: string)
    | Signal(payload: SignalPayload)
    | PeerLeft(socketId: SocketId)

  /** `event` emitted to socket `to` by a broadcast to room `via`. */
  datatype Delivery = Delivery(via: SessionId, to: SocketId, event: Event)

  /** `activeRooms`: session id to the ids of the sockets that joined it. */
  datatype Registry = Registry(sessions: map<SessionId, set<SocketId>>)

  /** The registry after a handler ran, and what the handler emitted. */
  datatype Step = Step(registry: Registry, out: set<Delivery>)

  const Empty: Registry := Registry(map[])

  /** The members of a session; an absent session has none. */
  function Members(r: Registry, s: SessionId): set<SocketId> {
    if s in r.sessions then r.sessions[s] else {}
  }

  /** The bookkeeping invariant: no session is kept without members. */
  predicate NoEmptySession(r: Registry) {
    forall s :: s in r.sessions ==> r.sessions[s] != {}
  }

  /** `socket.to(via).emit(e)` when the room holds `recipients` besides the emitting socket. */
  function Broadcast(via: SessionId, recipients: set<SocketId>, e: Event): (out: set<Delivery>)
    ensures forall d :: d in out <==> d.via == via && d.to in recipients && d.event == e
  {
    set p | p in recipients :: Delivery(via, p, e)
  }

  /**
   * `join-session {sessionId, role}` from socket `sock`. A falsy (here: empty)
   * session id is dropped. Otherwise the socket is added to the session,
   * which is created when absent, and every other member is told
   * `peer-joined {socketId, role}`, on a repeated join as well.
   */
  function Join(r: Registry, sock: SocketId, sessionId: SessionId, role: string): (st: Step)
    ensures sessionId == "" ==> st.registry == r && st.out == {}
    ensures st.registry.sessions.Keys == r.sessions.Keys + (if sessionId == "" then {} else {sessionId})
    ensures forall s, p :: p in Members(st.registry, s) <==>
      p in Members(r, s) || (sessionId != "" && s == sessionId && p == sock)
    ensures forall d :: d in st.out <==>
      sessionId != "" && d.via == sessionId && d.to in Members(r, sessionId) && d.to != sock
      && d.event == PeerJoined(sock, role)
    ensures forall d :: d in st.out ==> d.to != sock
    ensures NoEmptySession(r) ==> NoEmptySession(st.registry)
  {
    if sessionId == "" then
      Step(r, {})
    else
      var peers := Members(r, sessionId) + {sock};
      Step(Registry(r.sessions[sessionId := peers]),
           Broadcast(sessionId, peers - {sock}, PeerJoined(sock, role)))
  }

  /**
   * `signal payload` from socket `sock`: dropped when the payload's session id
   * is falsy, otherwise the payload goes unchanged to every member of its
   * session except the sender. The sender need not be a member. The registry
   * does not change.
   */
  function Forward(r: Registry, sock: SocketId, payload: SignalPayload): (st: Step)
    ensures st.registry == r
    ensures forall d :: d in st.out <==>
      payload.sessionId != "" && d.via == payload.sessionId
      && d.to in Members(r, payload.sessionId) && d.to != sock && d.event == Signal(payload)
  {
    if payload.sessionId == "" then
      Step(r, {})
    else
      Step(r, Broadcast(payload.sessionId, Members(r, payload.sessionId) - {sock}, Signal(payload)))
  }

  /** The rooms `disconnecting` walks: the sessions holding the socket, minus the socket's own-id room. */
  function JoinedSessions(r: Registry, sock: SocketId): (rooms: set<SessionId>)
    ensures forall s :: s in rooms <==> s != sock && sock in Members(r, s)
  {
    set s | s in r.sessions && sock in r.sessions[s] && s != sock
  }

  /**
   * `disconnecting` of socket `sock`: in every joined session the other
   * members are told `peer-left {socketId}` and the socket leaves the set;
   * a set left empty is deleted. Sessions without the socket, and the room
   * named after the socket itself, are untouched.
   */
  function Disconnect(r: Registry, sock: SocketId): (st: Step)
    ensures forall s :: s != sock ==> sock !in Members(st.registry, s)
    ensures forall s, p :: p != sock ==> (p in Members(st.registry, s) <==> p in Members(r, s))
    ensures Members(st.registry, sock) == Members(r, sock)
    ensures forall s :: s in st.registry.sessions <==>
      s in r.sessions && (s == sock || Members(r, s) != {sock})
    ensures forall s :: sock !in Members(r, s) ==>
      (s in st.registry.sessions <==> s in r.sessions) && Members(st.registry, s) == Members(r, s)
    ensures forall d :: d in st.out <==>
      d.via != sock && sock in Members(r, d.via) && d.to in Members(r, d.via) && d.to != sock
      && d.event == PeerLeft(sock)
    ensures NoEmptySession(r) ==> NoEmptySession(st.registry)
  {
    var left := JoinedSessions(r, sock);
    var sessions := map s | s in r.sessions && (s !in left || r.sessions[s] != {sock}) ::
      if s in left then r.sessions[s] - {sock} else r.sessions[s];
    var out := set s, p | s in left && p in Members(r, s) && p != sock :: Delivery(s, p, PeerLeft(sock));
    Step(Registry(sessions), out)
  }
}

=== FILE: relay_history.dfy ===
/**
 * Runs of the relay: a sequence of handler calls applied to the registry,
 * and what the registry holds after any run.
 */
module RelayHistory {
  import opened SignalTypes
  import opened Relay

  /** One inbound socket event the relay handles. */
  datatype Command =
    | JoinCmd(sock: SocketId, sessionId: SessionId, role: string)
    | SignalCmd(sock: SocketId, payload: SignalPayload)
    | DisconnectCmd(sock: SocketId)

  function Apply(r: Registry, c: Command): Step {
    match c
    case JoinCmd(sock, sessionId, role) => Join(r, sock, sessionId, role)
    case SignalCmd(sock, payload) => Forward(r, sock, payload)
    case DisconnectCmd(sock) => Disconnect(r, sock)
  }

  /** No socket is ever told that it joined or left itself. */
  ghost predicate NoSelfNotice(out: set<Delivery>) {
    forall d :: d in out ==>
      (d.event.PeerJoined? ==> d.to != d.event.socketId)
      && (d.event.PeerLeft? ==> d.to != d.event.socketId)
  }

  /** The registry after the commands, applied in order. */
  function Run(r: Registry, cmds: seq<Command>): (r': Registry)
    ensures NoEmptySession(r) ==> NoEmptySession(r')
    decreases |cmds|
  {
    if |cmds| == 0 then r else Apply(Run(r, cmds[..|cmds| - 1]), cmds[|cmds| - 1]).registry
  }

  /** Everything the relay emitted during the run. */
  function Outbox(r: Registry, cmds: seq<Command>): (out: set<Delivery>)
    ensures NoSelfNotice(out)
    decreases |cmds|
  {
    if |cmds| == 0 then {}
    else Outbox(r, cmds[..|cmds| - 1]) + Apply(Run(r, cmds[..|cmds| - 1]), cmds[|cmds| - 1]).out
  }

  /** Socket `p` did not disconnect after position `i`. */
  ghost predicate StaysAfter(cmds: seq<Command>, p: SocketId, i: int) {
    forall j :: 0 <= j < |cmds| && i < j ==> cmds[j] != DisconnectCmd(p)
  }

  /** Socket `p` joined session `s` at some point and has not disconnected since. */
  ghost predicate JoinedAndStayed(cmds: seq<Command>, p: SocketId, s: SessionId) {
    exists i :: 0 <= i < |cmds| && cmds[i].JoinCmd? && cmds[i].sock == p && cmds[i].sessionId == s
      && s != "" && StaysAfter(cmds, p, i)
  }

  /** Whether command `c` is a join of socket `p` to the non-empty session `s`. */
  predicate JoinsTo(c: Command, p: SocketId, s: SessionId) {
    c.JoinCmd? && c.sock == p && c.sessionId == s && s != ""
  }

  /** One handler call adds `p` to `s` only by a join, and removes it only by its own disconnect. */
  lemma ApplyMembership(r: Registry, c: Command, p: SocketId, s: SessionId)
    requires s != p
    ensures p in Members(Apply(r, c).registry, s) <==>
      JoinsTo(c, p, s) || (c != DisconnectCmd(p) && p in Members(r, s))
  {
  }

  /** Extending a history by one command, in terms of `JoinedAndStayed`. */
  lemma {:induction false} JoinedAndStayedSnoc(prefix: seq<Command>, c: Command, p: SocketId, s: SessionId)
    ensures JoinedAndStayed(prefix + [c], p, s) <==>
      JoinsTo(c, p, s) || (c != DisconnectCmd(p) && JoinedAndStayed(prefix, p, s))
  {
    var cmds := prefix + [c];
    var n := |cmds|;
    assert forall i :: 0 <= i < n - 1 ==> cmds[i] == prefix[i];
    assert cmds[n - 1] == c;
    if JoinsTo(c, p, s) {
      assert StaysAfter(cmds, p, n - 1);
      assert JoinedAndStayed(cmds, p, s);
    } else if c == DisconnectCmd(p) {
      forall i | 0 <= i < n && cmds[i].JoinCmd?
        ensures !StaysAfter(cmds, p, i)
      {
        assert i < n - 1;
      }
    } else {
      if JoinedAndStayed(cmds, p, s) {
        var i :| 0 <= i < n && cmds[i].JoinCmd? && cmds[i].sock == p && cmds[i].sessionId == s
          && s != "" && StaysAfter(cmds, p, i);
        assert i < n - 1;
        assert StaysAfter(prefix, p, i);
        assert JoinedAndStayed(prefix, p, s);
      }
      if JoinedAndStayed(prefix, p, s) {
        var i :| 0 <= i < n - 1 && prefix[i].JoinCmd? && prefix[i].sock == p && prefix[i].sessionId == s
          && s != "" && StaysAfter(prefix, p, i);
        assert StaysAfter(cmds, p, i);
        assert JoinedAndStayed(cmds, p, s);
      }
    }
  }

  /**
   * The bookkeeping is exact: starting from an empty registry, a socket is a
   * member of a session (other than the room named after it) exactly when it
   * joined that session and has not disconnected since.
   */
  lemma {:induction false} RunMembership(cmds: seq<Command>, p: SocketId, s: SessionId)
    requires s != p
    ensures p in Members(Run(Empty, cmds), s) <==> JoinedAndStayed(cmds, p, s)
    decreases |cmds|
  {
    if |cmds| == 0 {
      return;
    }
    var n := |cmds|;
    var prefix := cmds[..n - 1];
    var c := cmds[n - 1];
    assert cmds == prefix + [c];
    RunMembership(prefix, p, s);
    ApplyMembership(Run(Empty, prefix), c, p, s);
    JoinedAndStayedSnoc(prefix, c, p, s);
  }
}

=== FILE: relay_lemmas.dfy ===
/** Properties that relate several relay handler calls. */
module RelayLemmas {
  import opened SignalTypes
  import opened Relay

  /**
   * Joining is a set add: a second identical join leaves the registry as the
   * first left it, yet it broadcasts `peer-joined` to the other members again.
   */
  lemma RepeatedJoin(r: Registry, sock: SocketId, sessionId: SessionId, role: string)
    ensures Join(Join(r, sock, sessionId, role).registry, sock, sessionId, role).registry
         == Join(r, sock, sessionId, role).registry
    ensures Join(Join(r, sock, sessionId, role).registry, sock, sessionId, role).out
         == Join(r, sock, sessionId, role).out
  {
    var first := Join(r, sock, sessionId, role);
    var second := Join(first.registry, sock, sessionId, role);
    if sessionId != "" {
      assert Members(first.registry, sessionId) + {sock} == Members(first.registry, sessionId);
      assert Members(first.registry, sessionId) - {sock} == Members(r, sessionId) - {sock};
    }
  }

  /** The set of sessions a socket appears in, apart from the room named after it. */
  ghost predicate InNoSession(r: Registry, sock: SocketId) {
    forall s :: s != sock ==> sock !in Members(r, s)
  }

  /**
   * A socket that had joined nothing, joins one session and disconnects
   * leaves the registry exactly as it found it.
   */
  lemma JoinThenDisconnect(r: Registry, sock: SocketId, sessionId: SessionId, role: string)
    requires NoEmptySession(r)
    requires InNoSession(r, sock)
    requires sessionId != sock
    ensures Disconnect(Join(r, sock, sessionId, role).registry, sock).registry == r
  {
    var joined := Join(r, sock, sessionId, role).registry;
    var back := Disconnect(joined, sock).registry;
    forall s | true
      ensures Members(back, s) == Members(r, s)
    {
      if s != sock {
        assert sock !in Members(back, s) && sock !in Members(r, s);
      }
    }
    forall s | true
      ensures s in back.sessions <==> s in r.sessions
    {
      if s == sessionId && s in r.sessions {
        var p :| p in r.sessions[s];
        assert p in Members(joined, s) && p != sock;
      }
    }
    SameMembersSameRegistry(back, r);
  }

  /** Two registries with the same sessions and the same members in each are equal. */
  lemma SameMembersSameRegistry(x: Registry, y: Registry)
    requires forall s :: s in x.sessions <==> s in y.sessions
    requires forall s :: Members(x, s) == Members(y, s)
    ensures x == y
  {
    forall s | s in x.sessions
      ensures x.sessions[s] == y.sessions[s]
    {
      assert Members(x, s) == Members(y, s);
    }
    assert x.sessions.Keys == y.sessions.Keys;
  }

  /** A second disconnect of the same socket changes nothing and sends nothing. */
  lemma DisconnectIdempotent(r: Registry, sock: SocketId)
    ensures Disconnect(Disconnect(r, sock).registry, sock) == Step(Disconnect(r, sock).registry, {})
  {
    var once := Disconnect(r, sock).registry;
    var twice := Disconnect(once, sock);
    forall s | s in once.sessions
      ensures s in twice.registry.sessions && twice.registry.sessions[s] == once.sessions[s]
    {
      assert Members(twice.registry, s) == Members(once, s);
    }
    assert twice.registry.sessions.Keys == once.sessions.Keys;
    assert twice.registry == once;
    assert twice.out == {};
  }

  /**
   * Once the last member has left a session, a signal addressed to it is
   * delivered to no one.
   */
  lemma EmptiedSessionDropsSignals(r: Registry, sock: SocketId, from: SocketId, payload: SignalPayload)
    requires payload.sessionId != sock
    requires Members(r, payload.sessionId) == {sock}
    ensures payload.sessionId !in Disconnect(r, sock).registry.sessions
    ensures Forward(Disconnect(r, sock).registry, from, payload).out == {}
  {
  }

  /**
   * A socket that joins the session named after its own id is never taken
   * out of it: `disconnecting` skips that room, so the entry outlives the
   * socket and a later joiner is announced to it.
   */
  lemma OwnRoomEntryOutlivesSocket(a: SocketId, b: SocketId, role: string, role': string)
    requires a != "" && b != a
    ensures Disconnect(Join(Empty, a, a, role).registry, a).registry == Registry(map[a := {a}])
    ensures Delivery(a, a, PeerJoined(b, role'))
      in Join(Disconnect(Join(Empty, a, a, role).registry, a).registry, b, a, role').out
  {
    var joined := Join(Empty, a, a, role).registry;
    assert Members(joined, a) == {a};
    var gone := Disconnect(joined, a).registry;
    assert Members(gone, a) == {a};
    assert gone.sessions.Keys == {a};
  }
}

=== FILE: scenarios.dfy ===
/** Two peers meeting in one session, as the relay sees it. */
module Scenarios {
  import opened Options
  import opened SignalTypes
  import opened Relay

  /** The session `sid` holding exactly `a` and `b`. */
  function Pair(sid: SessionId, a: SocketId, b: SocketId): Registry {
    Registry(map[sid := {a, b}])
  }

  /**
   * A sender `a` and then a receiver `b` join session `sid` of an empty
   * relay: nobody hears of `a`, only `a` hears of `b`, and the session then
   * holds both.
   */
  lemma TwoJoins(a: SocketId, b: SocketId, sid: SessionId)
    requires a != b && sid != ""
    ensures var first := Join(Empty, a, sid, RoleName(Sender));
      var second := Join(first.registry, b, sid, RoleName(Receiver));
      && first.out == {}
      && second.out == {Delivery(sid, a, PeerJoined(b, "receiver"))}
      && second.registry == Pair(sid, a, b)
  {
    var first := Join(Empty, a, sid, RoleName(Sender));
    var second := Join(first.registry, b, sid, RoleName(Receiver));
    assert Members(first.registry, sid) == {a};
    assert first.out == {};
    assert Members(second.registry, sid) == {a, b};
    assert second.registry.sessions.Keys == {sid};
    assert second.out == {Delivery(sid, a, PeerJoined(b, "receiver"))};
  }

  /** In a two-member session each member's signal reaches exactly the other. */
  lemma PairSignals(a: SocketId, b: SocketId, sid: SessionId, payload: SignalPayload)
    requires a != b && sid != "" && payload.sessionId == sid
    ensures Forward(Pair(sid, a, b), a, payload).out == {Delivery(sid, b, Signal(payload))}
    ensures Forward(Pair(sid, a, b), b, payload).out == {Delivery(sid, a, Signal(payload))}
  {
    assert Members(Pair(sid, a, b), sid) == {a, b};
    assert Forward(Pair(sid, a, b), a, payload).out == {Delivery(sid, b, Signal(payload))};
    assert Forward(Pair(sid, a, b), b, payload).out == {Delivery(sid, a, Signal(payload))};
  }

  /** When one member of a two-member session disconnects, the other alone is told and stays. */
  lemma PairDisconnect(a: SocketId, b: SocketId, sid: SessionId)
    requires a != b && sid != a && sid != b
    ensures Disconnect(Pair(sid, a, b), a).out == {Delivery(sid, b, PeerLeft(a))}
    ensures Disconnect(Pair(sid, a, b), a).registry == Registry(map[sid := {b}])
  {
    var gone := Disconnect(Pair(sid, a, b), a);
    assert Members(Pair(sid, a, b), sid) == {a, b};
    assert gone.out == {Delivery(sid, b, PeerLeft(a))};
    assert Members(gone.registry, sid) == {b};
    assert gone.registry.sessions.Keys == {sid};
  }

  /**
   * A sender `a` and a receiver `b` join session `sid` in that order: only
   * `a` hears of `b`. The offer of `a` reaches only `b`, the answer of `b`
   * reaches only `a`, and when `a` disconnects `b` alone is told and stays
   * the session's only member.
   */
  lemma TwoPeerSession(a: SocketId, b: SocketId, sid: SessionId, offerSdp: string, answerSdp: string)
    requires a != b && sid != "" && sid != a && sid != b
    ensures var first := Join(Empty, a, sid, RoleName(Sender));
      var second := Join(first.registry, b, sid, RoleName(Receiver));
      var offer := SignalPayload(sid, Offer, Some(offerSdp), None);
      var answer := SignalPayload(sid, Answer, Some(answerSdp), None);
      && first.out == {}
      && second.out == {Delivery(sid, a, PeerJoined(b, "receiver"))}
      && Forward(second.registry, a, offer).out == {Delivery(sid, b, Signal(offer))}
      && Forward(second.registry, b, answer).out == {Delivery(sid, a, Signal(answer))}
      && Disconnect(second.registry, a).out == {Delivery(sid, b, PeerLeft(a))}
      && Disconnect(second.registry, a).registry == Registry(map[sid := {b}])
  {
    TwoJoins(a, b, sid);
    PairSignals(a, b, sid, SignalPayload(sid, Offer, Some(offerSdp), None));
    PairSignals(a, b, sid, SignalPayload(sid, Answer, Some(answerSdp), None));
    PairDisconnect(a, b, sid);
  }
}

=== FILE: signal_types.dfy ===
/**
 * The signaling vocabulary shared by the client and the relay: the peer
 * role, the signal type and the signal payload that travels through the
 * relay unchanged.
 */
module SignalTypes {
  import opened Options

  /** `SignalRole`: exactly one of `sender` or `receiver`. */
  datatype Role = Sender | Receiver

  /** `SignalType`: exactly one of `offer`, `answer` or `candidate`. */
  datatype SignalType = Offer | Answer | Candidate

  /** An ICE candidate descriptor; its contents belong to the WebRTC library and stay opaque. */
  datatype IceCandidate = IceCandidate(descriptor: string)

  /**
   * `SignalPayload`: every payload names a session and a type; `sdp` and
   * `candidate` are each optional and are not tied to the type.
   */
  datatype SignalPayload = SignalPayload(
    sessionId: string,
    kind: SignalType,
    sdp: Option<string>,
    candidate: Option<IceCandidate>)

  /** The wire spelling of a role. */
  function RoleName(r: Role): string {
    match r
    case Sender => "sender"
    case Receiver => "receiver"
  }

  /**
   * Reads a wire string as a role; only the two literal spellings are roles.
   * Together with `RoleName` it encodes the string-literal union `SignalRole`.
   */
  function ParseRole(s: string): (r: Option<Role>)
    ensures r.Some? <==> s == "sender" || s == "receiver"
    ensures r.Some? ==> RoleName(r.value) == s
  {
    if s == "sender" then Some(Sender)
    else if s == "receiver" then Some(Receiver)
    else None
  }

  /** The wire spelling of a signal type. */
  function SignalTypeName(t: SignalType): string {
    match t
    case Offer => "offer"
    case Answer => "answer"
    case Candidate => "candidate"
  }

  /**
   * Reads a wire string as a signal type; only the three literal spellings are
   * types. Together with `SignalTypeName` it encodes the string-literal union `SignalType`.
   */
  function ParseSignalType(s: string): (t: Option<SignalType>)
    ensures t.Some? <==> s == "offer" || s == "answer" || s == "candidate"
    ensures t.Some? ==> SignalTypeName(t.value) == s
  {
    if s == "offer" then Some(Offer)
    else if s == "answer" then Some(Answer)
    else if s == "candidate" then Some(Candidate)
    else None
  }

  /** Every role survives a trip through its wire spelling, and the spellings are distinct. */
  lemma RoleNameRoundTrip(r: Role, r': Role)
    ensures ParseRole(RoleName(r)) == Some(r)
    ensures RoleName(r) == RoleName(r') ==> r == r'
  {
  }

  /** Every signal type survives a trip through its wire spelling, and the spellings are distinct. */
  lemma SignalTypeNameRoundTrip(t: SignalType, t': SignalType)
    ensures ParseSignalType(SignalTypeName(t)) == Some(t)
    ensures SignalTypeName(t) == SignalTypeName(t') ==> t == t'
  {
  }
}

=== FILE: signaling_client.dfy ===
/**
 * The client side of the signaling connection: an optional socket, the
 * remembered endpoint and the `signal` listeners registered on the socket.
 * `L` is the type of listeners; a listener is compared by identity, as
 * JavaScript compares functions.
 */
module SignalingClient {
  import opened Options
  import opened SignalTypes

  /** What the client emits on its socket. */
  datatype Outbound =
    | JoinSessionMsg(sessionId: string, role: Role)
    | SignalMsg(payload: SignalPayload)

  /** Calls the client makes into the socket library, each naming the socket it concerns. */
  datatype SocketCall =
    | Open(socket: nat, url: string)
    | Emit(socket: nat, msg: Outbound)
    | RemoveAllListeners(socket: nat)
    | Close(socket: nat)

  /**
   * An open socket. The emitter keeps its `signal` listeners in a list that
   * may hold one listener twice, so they form a multiset.
   */
  datatype Socket<L(==)> = Socket(id: nat, url: string, listeners: multiset<L>)

  /** `created` counts the sockets created so far and names the next one. */
  datatype Client<L(==)> = Client(socket: Option<Socket<L>>, endpoint: Option<string>, created: nat)

  /** The client after an operation, and the socket calls the operation made, in order. */
  datatype Step<L(==)> = Step(client: Client<L>, calls: seq<SocketCall>)

  /** The client as created: no socket, no endpoint. */
  function Initial<L(==)>(): (c: Client<L>)
    ensures Valid(c) && c.socket.None? && c.endpoint.None? && Listeners(c) == multiset{}
  {
    Client(None, None, 0)
  }

  /**
   * Socket ids are handed out in order, so the current socket's id is below
   * the counter; and the current socket is connected to the remembered endpoint.
   */
  predicate Valid<L(==)>(c: Client<L>) {
    c.socket.Some? ==> c.socket.value.id < c.created && c.endpoint == Some(c.socket.value.url)
  }

  /** The `signal` listeners currently registered; none without a socket. */
  function Listeners<L(==)>(c: Client<L>): multiset<L> {
    if c.socket.Some? then c.socket.value.listeners else multiset{}
  }

  /**
   * `disconnect()`: drops every listener and closes the socket, if there is
   * one, and leaves no socket. The endpoint is still remembered.
   */
  function Disconnect<L(==)>(c: Client<L>): (r: Step<L>)
    ensures r.client.socket.None? && Listeners(r.client) == multiset{}
    ensures r.client.endpoint == c.endpoint && r.client.created == c.created
    ensures c.socket.None? ==> r.calls == []
    ensures c.socket.Some? ==> r.calls == [RemoveAllListeners(c.socket.value.id), Close(c.socket.value.id)]
    ensures Valid(r.client)
  {
    match c.socket
    case None => Step(c, [])
    case Some(s) => Step(c.(socket := None), [RemoveAllListeners(s.id), Close(s.id)])
  }

  /**
   * `connect(baseUrl)`: nothing happens when a socket exists and the
   * endpoint is the same; otherwise the current socket is disconnected, the
   * endpoint recorded and a new socket opened to it.
   */
  function Connect<L(==)>(c: Client<L>, url: string): (r: Step<L>)
    requires Valid(c)
    ensures Valid(r.client)
    ensures r.client.socket.Some? && r.client.socket.value.url == url && r.client.endpoint == Some(url)
    ensures c.socket.Some? && c.endpoint == Some(url) ==> r == Step(c, [])
    ensures !(c.socket.Some? && c.endpoint == Some(url)) ==>
      && Listeners(r.client) == multiset{}
      && (c.socket.Some? ==> r.client.socket.value.id != c.socket.value.id)
      && r.calls == Disconnect(c).calls + [Open(r.client.socket.value.id, url)]
  {
    if c.socket.Some? && c.endpoint == Some(url) then
      Step(c, [])
    else
      var closed := Disconnect(c);
      Step(Client(Some(Socket(c.created, url, multiset{})), Some(url), c.created + 1),
           closed.calls + [Open(c.created, url)])
  }

  /** `joinSession(params)`: emits `join-session` with the params unchanged, when there is a socket. */
  function JoinSession<L(==)>(c: Client<L>, sessionId: string, role: Role): (r: Step<L>)
    ensures r.client == c
    ensures c.socket.None? ==> r.calls == []
    ensures c.socket.Some? ==> r.calls == [Emit(c.socket.value.id, JoinSessionMsg(sessionId, role))]
  {
    match c.socket
    case None => Step(c, [])
    case Some(s) => Step(c, [Emit(s.id, JoinSessionMsg(sessionId, role))])
  }

  /** `emitSignal(payload)`: emits `signal` with the payload unchanged, when there is a socket. */
  function EmitSignal<L(==)>(c: Client<L>, payload: SignalPayload): (r: Step<L>)
    ensures r.client == c
    ensures c.socket.None? ==> r.calls == []
    ensures c.socket.Some? ==> r.calls == [Emit(c.socket.value.id, SignalMsg(payload))]
  {
    match c.socket
    case None => Step(c, [])
    case Some(s) => Step(c, [Emit(s.id, SignalMsg(payload))])
  }

  /** `onSignal(listener)`: registers exactly one more occurrence of the listener, when there is a socket. */
  function OnSignal<L(==,!new)>(c: Client<L>, l: L): (r: Client<L>)
    ensures r.endpoint == c.endpoint && r.created == c.created
    ensures r.socket.None? <==> c.socket.None?
    ensures r.socket.Some? ==> r.socket.value.id == c.socket.value.id && r.socket.value.url == c.socket.value.url
    ensures c.socket.None? ==> r == c
    ensures c.socket.Some? ==> Listeners(r)[l] == Listeners(c)[l] + 1
    ensures forall x :: x != l ==> Listeners(r)[x] == Listeners(c)[x]
  {
    match c.socket
    case None => c
    case Some(s) => c.(socket := Some(s.(listeners := s.listeners + multiset{l})))
  }

  /** `offSignal(listener)`: removes exactly one occurrence of the listener, when there is a socket. */
  function OffSignal<L(==,!new)>(c: Client<L>, l: L): (r: Client<L>)
    ensures r.endpoint == c.endpoint && r.created == c.created
    ensures r.socket.None? <==> c.socket.None?
    ensures r.socket.Some? ==> r.socket.value.id == c.socket.value.id && r.socket.value.url == c.socket.value.url
    ensures c.socket.None? ==> r == c
    ensures Listeners(c)[l] > 0 ==> Listeners(r)[l] == Listeners(c)[l] - 1
    ensures Listeners(c)[l] == 0 ==> Listeners(r)[l] == 0
    ensures forall x :: x != l ==> Listeners(r)[x] == Listeners(c)[x]
  {
    match c.socket
    case None => c
    case Some(s) => c.(socket := Some(s.(listeners := s.listeners - multiset{l})))
  }

  /**
   * `joinSession` and `emitSignal` send on the socket `connect` opened and
   * are dropped once the client is disconnected; neither touches the client.
   */
  lemma EmitsFollowConnection<L>(c: Client<L>, url: string, sessionId: string, role: Role, payload: SignalPayload)
    requires Valid(c)
    ensures var connected := Connect(c, url).client;
      && JoinSession(connected, sessionId, role).calls == [Emit(connected.socket.value.id, JoinSessionMsg(sessionId, role))]
      && EmitSignal(connected, payload).calls == [Emit(connected.socket.value.id, SignalMsg(payload))]
    ensures var closed := Disconnect(c).client;
      JoinSession(closed, sessionId, role).calls == [] && EmitSignal(closed, payload).calls == []
    ensures JoinSession(c, sessionId, role).client == c && EmitSignal(c, payload).client == c
  {
  }

  /** A second `connect` to the endpoint just connected to does nothing. */
  lemma ConnectIdempotent<L>(c: Client<L>, url: string)
    requires Valid(c)
    ensures Connect(Connect(c, url).client, url) == Step(Connect(c, url).client, [])
  {
  }

  /** `offSignal` undoes `onSignal` of the same listener. */
  lemma OffSignalUndoesOnSignal<L(!new)>(c: Client<L>, l: L)
    ensures OffSignal(OnSignal(c, l), l) == c
  {
    if c.socket.Some? {
      var s := c.socket.value;
      assert s.listeners + multiset{l} - multiset{l} == s.listeners;
    }
  }

  /**
   * After `disconnect` the endpoint is remembered, yet `connect` to that same
   * endpoint opens a new socket, because there is none.
   */
  lemma ReconnectAfterDisconnect<L>(c: Client<L>, url: string)
    requires Valid(c)
    requires c.endpoint == Some(url)
    ensures Disconnect(c).client.endpoint == Some(url)
    ensures Connect(Disconnect(c).client, url).calls == [Open(c.created, url)]
    ensures c.socket.Some? ==> Connect(Disconnect(c).client, url).client.socket.value.id != c.socket.value.id
  {
  }
}

=== FILE: text.dfy ===
/**
 * The few JavaScript string operations the application relies on:
 * `String.prototype.trim`, `s.split(c)[0]` and `s.length` (which counts
 * UTF-16 code units, while a Dafny `string` is a sequence of Unicode
 * scalar values).
 */
module Text {

  /** The characters `trim` strips: WhiteSpace and LineTerminator of ECMA-262 (sections 12.2 and 12.3). */
  predicate IsJsSpace(c: char) {
    || c == '\t' || c == '\n' || c == '\U{000B}' || c == '\U{000C}' || c == '\r'
    || c == ' ' || c == '\U{00A0}' || c == '\U{1680}'
    || ('\U{2000}' <= c <= '\U{200A}')
    || c == '\U{2028}' || c == '\U{2029}' || c == '\U{202F}' || c == '\U{205F}'
    || c == '\U{3000}' || c == '\U{FEFF}'
  }

  ghost predicate AllSpace(s: string) {
    forall i :: 0 <= i < |s| ==> IsJsSpace(s[i])
  }

  /** Length of the longest all-whitespace prefix. */
  function LeadingSpaces(s: string): (n: nat)
    ensures n <= |s|
    ensures forall i :: 0 <= i < n ==> IsJsSpace(s[i])
    ensures n == |s| || !IsJsSpace(s[n])
  {
    if |s| == 0 || !IsJsSpace(s[0]) then 0 else 1 + LeadingSpaces(s[1..])
  }

  /** Length of the longest all-whitespace suffix. */
  function TrailingSpaces(s: string): (n: nat)
    ensures n <= |s|
    ensures forall i :: |s| - n <= i < |s| ==> IsJsSpace(s[i])
    ensures n == |s| || !IsJsSpace(s[|s| - n - 1])
  {
    if |s| == 0 || !IsJsSpace(s[|s| - 1]) then 0 else 1 + TrailingSpaces(s[..|s| - 1])
  }

  /**
   * `s.trim()`: the slice of `s` left after removing the maximal whitespace
   * prefix and the maximal whitespace suffix.
   */
  function Trim(s: string): (r: string)
    ensures |r| <= |s|
    ensures LeadingSpaces(s) + |r| <= |s|
    ensures r == s[LeadingSpaces(s)..LeadingSpaces(s) + |r|]
    ensures forall i :: LeadingSpaces(s) + |r| <= i < |s| ==> IsJsSpace(s[i])
    ensures r == [] <==> AllSpace(s)
    ensures r != [] ==> !IsJsSpace(r[0]) && !IsJsSpace(r[|r| - 1])
  {
    var t := s[LeadingSpaces(s)..];
    t[..|t| - TrailingSpaces(t)]
  }

  /** Trimming twice is trimming once. */
  lemma TrimIdempotent(s: string)
    ensures Trim(Trim(s)) == Trim(s)
  {
    var r := Trim(s);
    if r != [] {
      assert LeadingSpaces(r) == 0;
      assert TrailingSpaces(r) == 0;
    }
  }

  /** Index of the first occurrence of `c` in `s`, or `|s|` when there is none. */
  function IndexOf(s: string, c: char): (n: nat)
    ensures n <= |s|
    ensures forall i :: 0 <= i < n ==> s[i] != c
    ensures n < |s| ==> s[n] == c
    ensures n == |s| <==> c !in s
  {
    if |s| == 0 then 0 else if s[0] == c then 0 else 1 + IndexOf(s[1..], c)
  }

  /** `s.split(c)[0]`: the text before the first `c`, or all of `s` when it has none. */
  function FirstField(s: string, c: char): (r: string)
    ensures c !in r
    ensures r <= s
    ensures c in s ==> r + [c] <= s
    ensures c !in s ==> r == s
  {
    s[..IndexOf(s, c)]
  }

  /** The first field of `x + [c] + y` is `x` whenever `x` holds no `c`. */
  lemma FirstFieldOfJoin(x: string, c: char, y: string)
    requires c !in x
    ensures FirstField(x + [c] + y, c) == x
  {
    var s := x + [c] + y;
    assert s[|x|] == c;
    assert forall i :: 0 <= i < |x| ==> s[i] == x[i];
    var n := IndexOf(s, c);
    assert n == |x|;
    assert s[..n] == x;
  }

  /** Number of UTF-16 code units a character takes: two for a supplementary-plane character. */
  function Utf16Units(c: char): nat {
    if c as int > 0xFFFF then 2 else 1
  }

  /** JavaScript's `s.length`. */
  function Utf16Length(s: string): (n: nat)
    ensures |s| <= n <= 2 * |s|
    ensures (forall i :: 0 <= i < |s| ==> s[i] as int <= 0xFFFF) ==> n == |s|
    ensures (forall i :: 0 <= i < |s| ==> s[i] as int > 0xFFFF) ==> n == 2 * |s|
  {
    if |s| == 0 then 0 else Utf16Units(s[0]) + Utf16Length(s[1..])
  }

  /** `s.length` adds up over concatenation. */
  lemma {:induction false} Utf16LengthAppend(s: string, t: string)
    ensures Utf16Length(s + t) == Utf16Length(s) + Utf16Length(t)
  {
    if |s| == 0 {
      assert s + t == t;
    } else {
      assert (s + t)[1..] == s[1..] + t;
      Utf16LengthAppend(s[1..], t);
    }
  }
}

=== FILE: user_store.dfy ===
/**
 * The authentication store: the signed-in user, whether the user is
 * authenticated, a loading flag and the last error. The sign-in back end
 * is the application's mock: it checks the credentials and derives a user.
 * Ids (built from the clock) are opaque parameters.
 */
module UserStore {
  import opened Options
  import opened Text

  datatype User = User(id: string, email: string, name: Option<string>, avatar: Option<string>)

  datatype AuthState = AuthState(user: Option<User>, isAuthenticated: bool, isLoading: bool, error: Option<string>)

  /** The part of the state written to storage. */
  datatype Persisted = Persisted(user: Option<User>, isAuthenticated: bool)

  /** What the mock back end returns: a user, or a thrown `Error` with its message. */
  datatype Attempt = Signed(user: User) | Rejected(message: string)

  /** The store after an action, and the message of the error it rethrows, if any. */
  datatype Transition = Transition(state: AuthState, rethrown: Option<string>)

  const InvalidCredentials := "Invalid email or password"

  /** The store as created. */
  const Initial := AuthState(None, false, false, None)

  /** The invariant: authenticated exactly when a user is held. */
  predicate Consistent(s: AuthState) {
    s.isAuthenticated <==> s.user.Some?
  }

  /** The mock's check: an `@` in the email and a password of at least six UTF-16 code units. */
  predicate ValidCredentials(email: string, password: string) {
    '@' in email && Utf16Length(password) >= 6
  }

  /** `email.split('@')[0]`. */
  function NameFromEmail(email: string): (name: string)
    ensures '@' !in name
    ensures '@' in email ==> name + ['@'] <= email
  {
    FirstField(email, '@')
  }

  /** `mockSignIn`: rejects bad credentials; otherwise the user with the email unchanged and the derived name. */
  function MockSignIn(email: string, password: string, id: string): (a: Attempt)
    ensures a.Rejected? <==> '@' !in email || Utf16Length(password) < 6
    ensures a.Rejected? ==> a.message == InvalidCredentials
    ensures a.Signed? ==> a.user.id == id && a.user.email == email && a.user.avatar.None?
    ensures a.Signed? ==> a.user.name.Some? && a.user.name.value + ['@'] <= email && '@' !in a.user.name.value
  {
    if !ValidCredentials(email, password) then Rejected(InvalidCredentials)
    else Signed(User(id, email, Some(NameFromEmail(email)), None))
  }

  /** `mockSignUp`: as `mockSignIn`, but a non-empty given name is kept. */
  function MockSignUp(email: string, password: string, name: Option<string>, id: string): (a: Attempt)
    ensures a.Rejected? <==> '@' !in email || Utf16Length(password) < 6
    ensures a.Rejected? ==> a.message == InvalidCredentials
    ensures a.Signed? ==> a.user.id == id && a.user.email == email && a.user.avatar.None?
    ensures a.Signed? && name.Some? && name.value != "" ==> a.user.name == name
    ensures a.Signed? && (name.None? || name.value == "") ==>
      a.user.name.Some? && a.user.name.value + ['@'] <= email && '@' !in a.user.name.value
  {
    if !ValidCredentials(email, password) then Rejected(InvalidCredentials)
    else
      var given := name.GetOr("");
      Signed(User(id, email, Some(if given != "" then given else NameFromEmail(email)), None))
  }

  /**
   * The common shape of `signIn` and `signUp`: the error is cleared and
   * loading set, then either the user is stored and authenticated, or the
   * message is recorded and rethrown with the user left as it was. Loading
   * ends in both cases.
   */
  function Settle(s: AuthState, a: Attempt): (r: Transition)
    ensures !r.state.isLoading
    ensures a.Signed? ==> r.state.user == Some(a.user) && r.state.isAuthenticated && r.state.error.None? && r.rethrown.None?
    ensures a.Rejected? ==>
      && r.state.user == s.user && r.state.isAuthenticated == s.isAuthenticated
      && r.state.error == Some(a.message) && r.rethrown == Some(a.message)
    ensures Consistent(s) ==> Consistent(r.state)
  {
    var loading := s.(isLoading := true, error := None);
    match a
    case Signed(u) => Transition(loading.(user := Some(u), isAuthenticated := true, isLoading := false), None)
    case Rejected(m) => Transition(loading.(error := Some(m), isLoading := false), Some(m))
  }

  /** `signIn(email, password)`. */
  function SignIn(s: AuthState, email: string, password: string, id: string): (r: Transition)
    ensures r.state.isAuthenticated <==> ValidCredentials(email, password) || s.isAuthenticated
    ensures ValidCredentials(email, password) ==>
      r.state.user.Some? && r.state.user.value.email == email && r.state.error.None? && r.rethrown.None?
    ensures ValidCredentials(email, password) ==>
      !r.state.isLoading && r.state.user == Some(User(id, email, Some(NameFromEmail(email)), None))
    ensures !ValidCredentials(email, password) ==>
      r.state == s.(isLoading := false, error := Some(InvalidCredentials)) && r.rethrown == Some(InvalidCredentials)
    ensures Consistent(s) ==> Consistent(r.state)
  {
    Settle(s, MockSignIn(email, password, id))
  }

  /** `signUp(email, password, name)`. */
  function SignUp(s: AuthState, email: string, password: string, name: Option<string>, id: string): (r: Transition)
    ensures r.state.isAuthenticated <==> ValidCredentials(email, password) || s.isAuthenticated
    ensures ValidCredentials(email, password) ==>
      r.state.user.Some? && r.state.user.value.email == email && r.state.error.None? && r.rethrown.None?
    ensures ValidCredentials(email, password) ==>
      && !r.state.isLoading
      && r.state.user == Some(User(id, email, Some(if name.Some? && name.value != "" then name.value else NameFromEmail(email)), None))
    ensures !ValidCredentials(email, password) ==>
      r.state == s.(isLoading := false, error := Some(InvalidCredentials)) && r.rethrown == Some(InvalidCredentials)
    ensures Consistent(s) ==> Consistent(r.state)
  {
    Settle(s, MockSignUp(email, password, name, id))
  }

  /** `signInWithGoogle()`: always signs in the fixed mock Google user. */
  function SignInWithGoogle(s: AuthState, id: string): (r: Transition)
    ensures Consistent(r.state) && r.state.isAuthenticated && !r.state.isLoading && r.state.error.None?
    ensures r.state.user == Some(User(id, "user@gmail.com", Some("Google User"), Some("https://via.placeholder.com/40")))
  {
    Settle(s, Signed(User(id, "user@gmail.com", Some("Google User"), Some("https://via.placeholder.com/40"))))
  }

  /** `signInWithApple()`: always signs in the fixed mock Apple user. */
  function SignInWithApple(s: AuthState, id: string): (r: Transition)
    ensures Consistent(r.state) && r.state.isAuthenticated && !r.state.isLoading && r.state.error.None?
    ensures r.state.user == Some(User(id, "user@icloud.com", Some("Apple User"), None))
  {
    Settle(s, Signed(User(id, "user@icloud.com", Some("Apple User"), None)))
  }

  /** `signOut()` and `continueAsGuest()`: no user, not authenticated, no error; loading untouched. */
  function SignOut(s: AuthState): (r: AuthState)
    ensures Consistent(r) && !r.isAuthenticated && r.error.None?
    ensures r.isLoading == s.isLoading
  {
    s.(user := None, isAuthenticated := false, error := None)
  }

  /** `continueAsGuest()`: the same update as `signOut()`. */
  function ContinueAsGuest(s: AuthState): (r: AuthState)
    ensures r == SignOut(s)
  {
    s.(user := None, isAuthenticated := false, error := None)
  }

  /** `clearError()`: only the error changes. */
  function ClearError(s: AuthState): (r: AuthState)
    ensures r.error.None?
    ensures r.user == s.user && r.isAuthenticated == s.isAuthenticated && r.isLoading == s.isLoading
  {
    s.(error := None)
  }

  /** `partialize`: only the user and the flag are stored. */
  function Persist(s: AuthState): (p: Persisted)
    ensures p.user == s.user && p.isAuthenticated == s.isAuthenticated
  {
    Persisted(s.user, s.isAuthenticated)
  }

  /** Rehydration merges the stored fields over the current state. */
  function Rehydrate(s: AuthState, p: Persisted): (r: AuthState)
    ensures Persist(r) == p
    ensures r.isLoading == s.isLoading && r.error == s.error
  {
    s.(user := p.user, isAuthenticated := p.isAuthenticated)
  }

  /**
   * Loading and error never reach storage, and restoring what a consistent
   * state stored gives a consistent state.
   */
  lemma PersistRoundTrip(s: AuthState, t: AuthState, loading: bool, error: Option<string>)
    ensures Persist(s.(isLoading := loading, error := error)) == Persist(s)
    ensures Consistent(t) ==> Consistent(Rehydrate(s, Persist(t)))
    ensures Rehydrate(t, Persist(t)) == t
  {
  }

  /** A sign-in with `x@y` names the user `x`. */
  lemma SignInName(x: string, y: string, password: string, id: string)
    requires '@' !in x
    requires Utf16Length(password) >= 6
    ensures MockSignIn(x + ['@'] + y, password, id) == Signed(User(id, x + ['@'] + y, Some(x), None))
  {
    FirstFieldOfJoin(x, '@', y);
  }

  /** The store starts consistent: signed out, not loading, without an error. */
  lemma InitialConsistent()
    ensures Consistent(Initial)
    ensures Initial.user.None? && !Initial.isLoading && Initial.error.None?
  {
  }
}
